=== FILE: README.md ===
# introspect-typed in Dafny

A model of the runtime type-matching engine and overload dispatcher of
`src/typed.js`, with its promises proved.

- **Descriptors and values** (`descriptors.dfy`, `values.dfy`). `Desc` is the descriptor vocabulary: a native constructor tested as a kind, `Any`, `Either`, `Matcher`, a `typeof` string, a class used with `instanceof`, `null`, `undefined`, and any other value. `Value` is a JavaScript value reduced to what matching observes: its kind, function and object identity, and for class instances the constructors on the prototype chain. `Typeof`, `Truthy` and the eight kind tests (`KindHolds`) are defined directly on `Value`.
- **`matchType`** (`matching.dfy`). The strategy list is a `seq<Strategy>`: the seven built-in `{case, match}` pairs in source order, then the strategies registered at run time. `Resolve` is the source's `reduce`, and `Found` is the value it carries. The first strategy whose `case` accepts the descriptor and whose `match` returns a truthy value wins. A falsy value lets the walk continue, but it is overwritten only by the next strategy: the walk ends with it when no strategy claims the descriptor and the last one returned it. Only `null` counts as "unclaimed" after the walk. Any other value that is not a function throws when the direct form calls it, and the curried form returns it as is. A predicate the walk builds is a `Plan`, one variant per closure in the source, and `Eval` applies it. `MatchType` is the direct form `matchType(type, val)`. It answers with a `Verdict`: a match, no match, or a thrown `TypeError`. `MatchTypeFn` is the curried form `matchType(type)`, and `Apply` calls what it returned. A throw from matching escapes `some`, `_.all`, `checkTypes`, the wrapper built by `typeChecked` (before its hook is consulted) and the dispatcher. `Either`'s closure calls `matchType` again when it is applied, so `Eval` reads the strategy list as it is at call time.
- **`addTypeMatchCase`** returns the extended list. The list is passed as a parameter and only ever grows. `ValidRegistry` says the built-ins come first and only registered strategies follow them.
- **Argument lists** (`argcheck.dfy`). `MatchTypes` is `_.zip` followed by `_.all`, padding the shorter list with undefined. `CheckTypes` adds the length test.
- **`typeChecked`** (`guarded.dfy`). A wrapper is a `Guard` value holding its descriptors, its function and its own hook slot. `OnError` returns the updated wrapper. A call yields an `Outcome`: the function is called with these arguments and this receiver, the hook is called (and the call yields undefined), a `TypeError` is thrown, or a value is returned. Handlers and hooks are foreign code, identified by their function id.
- **`overload`** (`overload.dfy`). A `Table` holds the clauses in registration order, the default it falls back to, and the companion object `o`, which is a map from property names to the default or to named proxies. `When` appends a clause. `Call` is the source's dispatch loop and `Dispatch` its declarative counterpart; the two are proved equal. `CallCompanion` is a call of `o[name]`.
- **Test behaviours** (`scenarios.dfy`). The `typeChecked` and `overload` examples of `test/typed.spec.js` listed in the table below are restated as lemmas, one or more per example. They are proved for every valid strategy list, not executed. Its `matchType` examples are not restated one by one: the per-descriptor lemmas of `MatchingFacts` state each of those descriptors' answers for every value.

Behaviours of `src/typed.js` that are easy to misread, as the model states them:

- The default handler is called with the call's arguments alone: unlike a clause handler, it never receives the companion object, whether or not it is wrapped by `typeChecked` (src/typed.js:178-181).
- The two call forms of `matchType` can give different answers for the same descriptor and value. They agree when every registered strategy's `match` ignores its second argument. In the direct form `match` is handed the value under test; in the curried form it is handed undefined (src/typed.js:72-76). `HintReaderSplitsTheForms` shows a strategy that makes the forms disagree. `CurriedAndDirectAgree` proves agreement for every strategy list whose strategies ignore that argument. The built-in strategies all do.
- A registered strategy whose `match` returns `undefined` (or another falsy value) declines the descriptor only when some strategy follows it. As the last strategy it makes `matchType(type, val)` throw, because only `null` is tested after the walk (src/typed.js:75-80). `FalsyMatchThrowsOnlyWhenLast` shows both cases.
- `Object` accepts functions as well as arrays, dates, regexps and `arguments`, because `_.isObject` does.

## Model

| member | source | states |
|---|---|---|
| Matching.AddTypeMatchCase | src/typed.js:83-93 | the list grows by exactly one strategy iff the candidate is an object whose `case` and `match` are functions; the old list is kept as a prefix; the new strategy goes last; a valid list stays valid |
| MatchingFacts.ReduceKeepsSettled | src/typed.js:76 | once the walk holds a truthy value, later strategies are not consulted and that value is the result |
| MatchingFacts.ReduceSkipsUnclaiming | src/typed.js:75-77 | from a falsy value, strategies that do not claim the descriptor are passed over while a later strategy remains |
| MatchingFacts.ResolveSkipsUnclaiming | src/typed.js:75-77 | strategies before the first one that claims the descriptor have no influence on the result, when a strategy remains after them |
| MatchingFacts.ResolveIsFirstClaim | src/typed.js:75-77 | the result is what the first strategy, in list order, that accepts the descriptor and returns a truthy value returns |
| MatchingFacts.ReduceFalsy | src/typed.js:75-77 | the walk ends falsy iff it starts falsy and no strategy claims the descriptor; it then ends with what the last strategy yields |
| MatchingFacts.ResolveUnclaimed | src/typed.js:75-79 | the walk ends truthy iff some strategy claims the descriptor; otherwise it ends with the last strategy's value, so `null` comes out iff no strategy claims and the last one does not return another falsy value |
| MatchingFacts.ResolveOne | src/typed.js:75-77 | a walk over one strategy ends with what that strategy yields |
| MatchingFacts.ResolveTwo | src/typed.js:75-77 | a walk over two strategies ends with the first one's value if it is truthy, and with the second one's otherwise |
| MatchingFacts.ResolveBuiltin | src/typed.js:40-61 | on any valid list, every descriptor except an arbitrary other value is decided by the built-ins, in their fixed priority order |
| MatchingFacts.ExtensionsDecideOnlyOther | src/typed.js:40-61 | only registered strategies can decide an arbitrary other value used as a descriptor |
| MatchingFacts.BuiltinsRejectOther | src/typed.js:79 | with only the built-ins, an unclaimed descriptor yields `false` in the direct form and an always-false predicate in the curried form |
| MatchingFacts.FalsyMatchThrowsOnlyWhenLast | src/typed.js:75-80 | a last strategy whose `match` returns `undefined` makes the direct form throw and the curried form return `undefined`; followed by a strategy that rejects the descriptor, the same strategy yields `false` and `() => false` |
| MatchingFacts.NativeMatchesByKind | src/typed.js:7-16 | a native constructor matches exactly the values of its kind |
| MatchingFacts.ObjectAndArrayTables | test/typed.spec.js:69-93 | `Object` accepts every non-primitive and rejects null, undefined, booleans, numbers and strings; `Array` accepts only arrays, so it rejects `arguments` |
| MatchingFacts.KindCaseShadowsInstanceof | src/typed.js:40-57 | `Number` is also claimed by the function case, but the kind case comes first; as an `instanceof` test it would reject every number |
| MatchingFacts.AnyMatchesEverything | src/typed.js:43-45 | `Any` matches every value, although `Any` is a function that no value is an instance of |
| MatchingFacts.NullishDescriptors | src/typed.js:58-60 | `null` matches only null and `undefined` only undefined |
| MatchingFacts.TagComparesTypeof | src/typed.js:52-54 | a string descriptor matches exactly the values whose `typeof` equals it |
| MatchingFacts.ClassUsesInstanceof | src/typed.js:55-57 | any other function never matches a primitive, null or undefined; a function with a `prototype` object matches exactly the instances with it on their prototype chain; one without makes every object throw |
| MatchingFacts.AnyMatchIffSome | src/typed.js:48 | `some` over the alternatives is false iff every alternative is; otherwise it answers as the first alternative that is not false, with a match or a throw |
| MatchingFacts.EitherIsDisjunction | src/typed.js:46-48 | `Either(t1..tn)` is false iff every `ti` is; when none throws it matches iff some `ti` matches; a throw comes from an alternative tried before any match; an empty `Either` matches nothing |
| MatchingFacts.MatcherSwallowsThrows | src/typed.js:30-51 | `Matcher(p)` yields the truthiness of `p(v)`, and `false` when `p` throws |
| MatchingFacts.StepIgnoresHint | src/typed.js:76 | a strategy whose `match` ignores its second argument yields the same value whatever it is handed |
| MatchingFacts.ReduceIgnoresHint | src/typed.js:75-77 | a walk over such strategies does not depend on the value handed to `match`, from any starting value |
| MatchingFacts.ResolveIgnoresHint | src/typed.js:72-77 | if no strategy's `match` reads the value it is handed, resolution does not depend on that value |
| MatchingFacts.CurriedAndDirectAgree | src/typed.js:72-81 | calling `matchType(d)` on `v` gives the same verdict as `matchType(d, v)`, including the always-false predicate for an unclaimed descriptor and the throw for a walk ending with a non-function, when no registered `match` reads its second argument |
| MatchingFacts.HintReaderSplitsTheForms | src/typed.js:72-80 | a registered strategy whose `match` reads its second argument makes the two forms disagree |
| MatchingFacts.ReduceConcat | src/typed.js:75-77 | walking a concatenation of two lists is walking the second from where the walk over the first ended |
| MatchingFacts.AppendKeepsResolution | src/typed.js:75-93 | appending strategies never changes a claim the earlier strategies already made |
| MatchingFacts.ExtendingKeepsClosedMatches | src/typed.js:40-61 | appending strategies never changes whether a descriptor without arbitrary values at any depth matches, even though `Either` re-resolves its alternatives when applied |
| MatchingFacts.ExtendingKeepsClosedAlternatives | src/typed.js:46-48 | the same for the alternatives of an `Either` |
| MatchingFacts.AddingStrategyKeepsClosedMatches | src/typed.js:89-93 | `addTypeMatchCase` cannot change how such a descriptor matches |
| ArgCheck.MatchTypesPadded | src/typed.js:95-96 | `matchTypes` holds iff every position of the zip matches, with the shorter list padded with undefined and no length check; otherwise it answers as the first position that does not match, with `false` or a throw |
| ArgCheck.CheckTypesPointwise | src/typed.js:97-98 | `checkTypes` holds iff the lengths are equal and each value matches its descriptor; a length mismatch always fails; two empty lists match; a throw comes from the first position that does not match |
| Guarded.OnError | src/typed.js:130-137 | a truthy callback becomes the hook and a falsy one restores the default; descriptors and function are unchanged |
| Guarded.GuardedCall | src/typed.js:117-128 | the function runs, with the same arguments and receiver, iff `checkTypes` holds; a throw from `checkTypes` escapes; otherwise the error carries the expected descriptors and the actual arguments, and goes to the hook or is thrown |
| Guarded.FreshGuardThrowsOnMismatch | src/typed.js:114-126 | a fresh wrapper throws the `TypeError` on any failing call |
| Guarded.HookReplacesThrow | src/typed.js:117-137 | after `onError(h)` a failing call invokes `h` with the error, the arguments and the descriptors, and does not throw |
| Guarded.MatchingErrorBypassesHook | src/typed.js:117-127 | a throw from `checkTypes` escapes the call whatever hook `onError` installed |
| Guarded.OnErrorFalsyRestoresDefault | src/typed.js:130-133 | after `onError` with a falsy value the wrapper behaves as a fresh one |
| Guarded.HookIrrelevantOnPass | src/typed.js:117-119 | on a passing call the hook is never consulted |
| Overload.NewOverload | src/typed.js:163-165 | a new table has no clauses, and its companion holds only `default`, bound to the table's default |
| Overload.When | src/typed.js:189-200 | the clause is appended last; a truthy name installs `o[name]` as a proxy for the handler; every other companion entry and the default are unchanged |
| Overload.FirstMatch | src/typed.js:170-176 | the walk stops at the earliest clause whose check does not answer false, selecting it if it matched and aborting if the check threw; it runs to the end iff every check answers false |
| Overload.Call | src/typed.js:167-187 | the dispatch loop with its `done` flag produces the first-match outcome, the throw of a check, or the default's outcome when nothing matched |
| OverloadFacts.EarlierClauseWins | src/typed.js:170-176 | the earliest accepting clause runs, with the companion appended and the caller's receiver, even when later clauses would also accept |
| OverloadFacts.RaisingClauseStopsDispatch | src/typed.js:170-176 | a check that throws before any clause accepts ends the call with that throw, whatever later clauses or the default would do |
| OverloadFacts.NoClauseFallsBack | src/typed.js:178-184 | without a matching clause, a function default is called with the arguments only (no companion), a typed default checks them, and any other default is returned |
| OverloadFacts.UntypedDispatchNeverThrows | src/typed.js:167-186 | with an untyped default a call throws iff a clause's check throws before any clause accepts, and never calls a hook |
| OverloadFacts.FreshTableCallsDefault | src/typed.js:155-161 | `overload(fn)` calls `fn`; `overload(types, fn)` guards `fn` and throws on a mismatch; `overload(x, fn)` with `x` not an array calls `fn`; otherwise the second argument is returned |
| OverloadFacts.WhenKeepsEarlierDecisions | src/typed.js:198 | registering a clause never changes the outcome of a call an earlier clause accepts or whose check throws |
| OverloadFacts.WhenCatchesOnlyUnmatched | src/typed.js:167-200 | a new clause takes exactly the calls that no earlier clause accepted and that its own descriptors accept; a throw from its check ends such a call |
| OverloadFacts.NamedWhenInstallsUncheckedProxy | src/typed.js:193-197 | `o[name]` calls the clause's handler with the companion appended, on any arguments, without a type check |
| OverloadFacts.NamedProxyAgreesWithDispatch | src/typed.js:193-197 | calling a named clause through the companion gives the same outcome as calling the table when dispatch picks that handler |
| OverloadFacts.ClauseNamedDefaultKeepsFallback | src/typed.js:163-197 | a clause named `default` replaces `o.default`, but dispatch still falls back to the original default |
| OverloadFacts.TwoArgumentFormDetection | src/typed.js:190-192 | `when` takes the two-argument form iff the arguments are an array, then a function, then only undefined; so `when(name, types, fn)` is never mistaken for it |
| Scenarios.NativeListChecksKinds | src/typed.js:95-98 | a list of native constructors checks the kinds position by position |
| Scenarios.ArrowDescriptorScenario | src/typed.js:55-57 | with an arrow function as descriptor and a hook installed, an object argument makes the check throw past the hook, and a number is a mismatch the hook receives |
| Scenarios.TypeCheckedScenario | test/typed.spec.js:150-182 | `[String, Number, Custom]` lets correct arguments through; two strings throw by default, call the installed hook, and throw again after `onError(null)` |
| Scenarios.CompleteShape | test/typed.spec.js:188-208 | the seven-clause table has its clauses in registration order with the expected arities |
| Scenarios.ThreeStringsScenario | test/typed.spec.js:210-212 | `fn('2','57','x')` runs the String/String/String clause |
| Scenarios.AnyFourScenario | test/typed.spec.js:214-216 | `fn('?',0,null,'fourth')` is rejected by every earlier clause and runs Any/Any/Any/Any with all four arguments and the companion |
| Scenarios.StringOrArray | test/typed.spec.js:201 | `Either(String, Array)` accepts exactly the strings and the arrays |
| Scenarios.EitherClauseAccepts | test/typed.spec.js:201-202 | any boolean followed by a string or an array runs the Boolean/Either clause |
| Scenarios.EitherScenario | test/typed.spec.js:218-221 | `fn(true,'?')` and `fn(false,[1,2,3,4,5])` both run the Boolean/Either clause |
| Scenarios.StringStringScenario | test/typed.spec.js:223-225 | `fn('2','57')` passes over the Number/Number clause and runs String/String |
| Scenarios.NumberStringScenario | test/typed.spec.js:226-228 | `fn(2,'57')` passes over the earlier two-argument clauses and runs Number/String |
| Scenarios.NumberNumberScenario | test/typed.spec.js:229-231 | `fn(2,57)` runs Number/Number, the first clause it fits |
| Scenarios.NumberScenario | test/typed.spec.js:232-234 | `fn(42)` runs the one-argument Number clause with the companion appended |
| Scenarios.ReceiverScenario | test/typed.spec.js:235-237 | `fn.apply(42, [])` runs the default with receiver 42 and no arguments |
| Scenarios.UntypedThreeArgumentScenario | test/typed.spec.js:252-258 | `createObj('great','a fancy obj',obj)` on the untyped table runs the String/String/Object clause with the companion appended |
| Scenarios.UntypedScenario | test/typed.spec.js:259-276 | `createObj('great', obj)` runs the String/Object clause, and `o.withName(name, obj)` behaves as that same table call; with an untyped default, `createObj(2)` reaches the default and does not throw |
| Scenarios.UntypedDefaultScenario | test/typed.spec.js:266-272 | `createObj(obj)` on the untyped table runs the default with the arguments alone |
| Scenarios.TypedClausesScenario | test/typed.spec.js:291-304 | on the typed table, three arguments run String/String/Object and two run String/Object, each with the companion appended |
| Scenarios.TypedDefaultScenario | test/typed.spec.js:305-311 | `createObj(obj)` passes the `[Object]` check and runs the default with the arguments alone |
| Scenarios.TypedScenario | test/typed.spec.js:312-315 | with `overload([Object], fn)`, `createObj(2)` throws the `TypeError` |

These are the defining functions. Their contracts, where they have one, only state the termination measure or that a built-in `match` returns a function. What they promise is stated by the lemmas above.
- `Matching`: `Accepts` (the `case`s, src/typed.js:40-61), `Build` (the `match`es, src/typed.js:40-61), `Step`, `Reduce` and `Resolve` (src/typed.js:75-77), `InstanceOf` (src/typed.js:57), `MatchType`, `MatchTypeFn` and `Apply` (src/typed.js:72-81), `Eval` and `AnyMatch`.
- `Descriptors`: `IsFunctionDesc` (`_.isFunction(type)`, src/typed.js:56).
- `ArgCheck`: `MatchTypes` and `CheckTypes`.
- `Guarded`: `TypeChecked`.
- `Overload`: `SettleDefault` (src/typed.js:157-161), `Installs` (`if (name)`, src/typed.js:193), `TwoArgumentForm` (src/typed.js:190), `CallDefault` (src/typed.js:178-184), `Dispatch` and `CallCompanion`.
- `Scenarios`: `Natives`.

## Left out

- Exceptions raised by foreign code are not modelled. This covers a registered strategy's `case`, its `match` and the predicate it returns, handlers, defaults, hooks, and property getters read by the `addTypeMatchCase` guard. Such code is modelled as total; in the source such an exception would propagate, or be turned into `false` inside the guard's `Matcher`.
- The result of a registered strategy's predicate is modelled as a boolean. The source returns it without `!!`.
- Number, string and boolean wrapper objects, NaN and non-integer numbers, objects without a prototype, and changes to prototypes are not modelled. Values are only classified.
- Symbol and BigInt primitives are not modelled. `Value` has no variant for them, so `typeof` never yields `"symbol"` or `"bigint"` in the model. In the source such a value matches only `Any`, a `Matcher` or a registered strategy that accepts it; a list of native constructors rejects it.
- MatchingFacts.ClassUsesInstanceof: a class with a static `Symbol.hasInstance` method, which decides `instanceof` with its own code, is not modelled; nor are bound functions, which defer to their target.
- Overload.CallCompanion: the companion `o` is an ordinary object, so it inherits the members of `Object.prototype` (`toString`, `hasOwnProperty`, `constructor`, ...). Calling one of those names, where the table set nothing, runs the inherited built-in in the source. The model treats every such key as undefined and the call as a throw.
- Overload.When: a clause named `__proto__` replaces the prototype of `o` in the source instead of adding a property. The model adds it as an ordinary key.
- Descriptor arrays passed to `typeChecked`, `overload` and `when`, and the alternatives held by an `Either`, are kept by reference in the source, so a caller's later change to such an array changes later checks. The model copies them as sequences when they are registered.
- Handlers are function ids, and `when` takes its handler as a function. A non-function passed there is not modelled.
- `when` names are strings or absent (null or undefined). Names of other types, which JavaScript would convert to property keys, are not modelled.
- An array given as the first argument of `overload` is always a descriptor list (`NewOverload` requires this of its `Val` form). This is a matter of encoding: the source treats every array that way.
- The `typeChecked` wrapper held as a typed default is a value in this model. A hook installed through `o.default.onError(...)` would change the fallback's behaviour in the source; the model does not track that sharing.
- The receiver (`this`) is passed through unchanged and not interpreted. The `TypeError` object is modelled only by its `details`.
- The mutable slots (the strategy list, each wrapper's hook, each table's clause list and companion object) are modelled as values that every update returns anew. The single-threaded source has no concurrency to model.
- `lib/node/typed.js`, `gulpfile.js` and the export loop at `src/typed.js:210-216` are not part of this model. They are a stale build output, build tooling and module glue.
- MatchingFacts.CurriedAndDirectAgree: requires every registered strategy's `match` to ignore its second argument, because the source hands it the value under test in one form and undefined in the other. Without that requirement the two forms can differ (MatchingFacts.HintReaderSplitsTheForms).
- Overload.NewOverload: its contract covers only the empty table and its companion. Which default the table settles on is stated by FreshTableCallsDefault.

=== FILE: argcheck.dfy ===
/** The argument-list checker: a descriptor list against the values of one call. */
module ArgCheck {

  import opened JsValues
  import opened Descriptors
  import opened Matching

  /** The `i`-th descriptor as `_.zip` pairs it: past the end it pads with undefined. */
  function DescAt(ts: seq<Desc>, i: nat): Desc {
    if i < |ts| then ts[i] else UndefinedType
  }

  /** The `i`-th value as `_.zip` pairs it. */
  function ValueAt(vs: seq<Value>, i: nat): Value {
    if i < |vs| then vs[i] else Undefined
  }

  function Tail<T>(s: seq<T>): seq<T> {
    if |s| == 0 then [] else s[1..]
  }

  function Max(a: nat, b: nat): nat {
    if a < b then b else a
  }

  /** The verdict for the `i`-th pair of the padded zip. */
  function MatchAt(reg: seq<Strategy>, ts: seq<Desc>, vs: seq<Value>, i: nat): Verdict {
    MatchType(reg, DescAt(ts, i), ValueAt(vs, i))
  }

  /** `matchTypes`: `_.zip` the two lists, then `_.all` pairs match. There is no
      length check; the shorter list is padded with undefined. `_.all` stops at the
      first falsy answer, and a throw escapes. */
  function MatchTypes(reg: seq<Strategy>, ts: seq<Desc>, vs: seq<Value>): Verdict
    decreases |ts| + |vs|
  {
    if |ts| == 0 && |vs| == 0 then Yes
    else
      match MatchType(reg, DescAt(ts, 0), ValueAt(vs, 0))
      case Yes => MatchTypes(reg, Tail(ts), Tail(vs))
      case other => other
  }

  /** `checkTypes`: equal lengths, then `matchTypes`. */
  function CheckTypes(reg: seq<Strategy>, ts: seq<Desc>, vs: seq<Value>): Verdict {
    if |ts| != |vs| then No else MatchTypes(reg, ts, vs)
  }

  /** `matchTypes` checks the positions of the padded zip in order: it holds iff every
      position matches, and otherwise answers as the first position that does not,
      with `false` or a throw. */
  lemma {:induction false} MatchTypesPadded(reg: seq<Strategy>, ts: seq<Desc>, vs: seq<Value>)
    ensures MatchTypes(reg, ts, vs) == Yes <==>
      forall i | 0 <= i < Max(|ts|, |vs|) :: MatchAt(reg, ts, vs, i) == Yes
    ensures MatchTypes(reg, ts, vs) != Yes ==> exists k | 0 <= k < Max(|ts|, |vs|) ::
      && MatchTypes(reg, ts, vs) == MatchAt(reg, ts, vs, k)
      && forall i | 0 <= i < k :: MatchAt(reg, ts, vs, i) == Yes
    decreases |ts| + |vs|
  {
    if |ts| > 0 || |vs| > 0 {
      var n := Max(|ts|, |vs|);
      MatchTypesPadded(reg, Tail(ts), Tail(vs));
      forall i | 1 <= i < n
        ensures MatchAt(reg, Tail(ts), Tail(vs), i - 1) == MatchAt(reg, ts, vs, i)
      {
        assert DescAt(Tail(ts), i - 1) == DescAt(ts, i) && ValueAt(Tail(vs), i - 1) == ValueAt(vs, i);
      }
      assert Max(|Tail(ts)|, |Tail(vs)|) == n - 1;
      if MatchAt(reg, ts, vs, 0) == Yes {
        if forall i | 0 <= i < n :: MatchAt(reg, ts, vs, i) == Yes {
          forall i | 0 <= i < n - 1
            ensures MatchAt(reg, Tail(ts), Tail(vs), i) == Yes
          {
            assert MatchAt(reg, Tail(ts), Tail(vs), i) == MatchAt(reg, ts, vs, i + 1);
          }
        } else {
          var k :| 0 <= k < n && MatchAt(reg, ts, vs, k) != Yes;
          assert MatchAt(reg, Tail(ts), Tail(vs), k - 1) != Yes;
        }
        if MatchTypes(reg, ts, vs) != Yes {
          var k :| 0 <= k < n - 1 && MatchTypes(reg, Tail(ts), Tail(vs)) == MatchAt(reg, Tail(ts), Tail(vs), k)
            && forall i | 0 <= i < k :: MatchAt(reg, Tail(ts), Tail(vs), i) == Yes;
          forall i | 0 <= i < k + 1
            ensures MatchAt(reg, ts, vs, i) == Yes
          {
            if i > 0 {
              assert MatchAt(reg, Tail(ts), Tail(vs), i - 1) == MatchAt(reg, ts, vs, i);
            }
          }
          assert MatchTypes(reg, ts, vs) == MatchAt(reg, ts, vs, k + 1);
        }
      } else {
        assert MatchTypes(reg, ts, vs) == MatchAt(reg, ts, vs, 0);
      }
    }
  }

  /** `checkTypes(ts, vs)` holds iff the lists have the same length and each value
      matches the descriptor at its position: a length mismatch fails whatever the
      elements, and two empty lists match. It throws only when, on lists of the same
      length, the first position that does not match throws. */
  lemma CheckTypesPointwise(reg: seq<Strategy>, ts: seq<Desc>, vs: seq<Value>)
    ensures CheckTypes(reg, ts, vs) == Yes <==>
      |ts| == |vs| && forall i | 0 <= i < |ts| :: MatchType(reg, ts[i], vs[i]) == Yes
    ensures |ts| != |vs| ==> CheckTypes(reg, ts, vs) == No
    ensures CheckTypes(reg, [], []) == Yes
    ensures CheckTypes(reg, ts, vs) == Raised ==> |ts| == |vs| && exists k | 0 <= k < |ts| ::
      MatchType(reg, ts[k], vs[k]) == Raised && forall i | 0 <= i < k :: MatchType(reg, ts[i], vs[i]) == Yes
  {
    MatchTypesPadded(reg, ts, vs);
    if |ts| == |vs| {
      assert forall i | 0 <= i < |ts| :: MatchAt(reg, ts, vs, i) == MatchType(reg, ts[i], vs[i]);
    }
  }

}

=== FILE: descriptors.dfy ===
/** Type descriptors: the values a caller hands to `matchType` to say what an
    argument must look like. */
module Descriptors {

  import opened JsValues

  /** What a user predicate does on a value: it throws, or it returns something of the
      given truthiness. */
  datatype PredResult = Throws | Returns(truthy: bool)

  datatype Desc =
      /** One of the native constructors `Function`, `Boolean`, ..., `String`. */
    | Native(kind: Kind)
      /** The `Any` sentinel. */
    | AnyType
      /** `Either(t1, ..., tn)`. */
    | Either(alts: seq<Desc>)
      /** `Matcher(p)`, with `p` a foreign predicate. */
    | Matcher(pred: Value -> PredResult)
      /** A string, compared against `typeof`. */
    | Tag(name: string)
      /** Any other function, used as the right operand of `instanceof`. `prototyped`
          is false for a function whose `prototype` property is not an object, such
          as an arrow function or a method. */
    | Class(ctor: ObjectId, prototyped: bool)
    | NullType
    | UndefinedType
      /** Any other value: a number, a boolean, a plain object, an array, ... */
    | Other(id: ObjectId)

  /** `_.isFunction(type)`: native constructors, `Any` and classes are functions;
      `Either` and `Matcher` descriptors are objects built by `new`. */
  predicate IsFunctionDesc(d: Desc) {
    d.Native? || d.AnyType? || d.Class?
  }

  /** Size measures used to show that matching a nested `Either` terminates. */
  function Size(d: Desc): nat {
    match d
    case Either(alts) => 2 + SizeAll(alts)
    case _ => 1
  }

  function SizeAll(alts: seq<Desc>): nat {
    if |alts| == 0 then 0 else Size(alts[0]) + 1 + SizeAll(alts[1..])
  }

  /** A descriptor that the built-in strategies claim at every depth: it contains no
      `Other` descriptor, not even inside an `Either`. */
  predicate Closed(d: Desc) {
    match d
    case Other(_) => false
    case Either(alts) => forall i | 0 <= i < |alts| :: Closed(alts[i])
    case _ => true
  }

}

=== FILE: guarded.dfy ===
/** `typeChecked`: a function wrapped so that it only runs on arguments that pass
    the argument-list checker, with a per-wrapper, replaceable error hook. */
module Guarded {

  import opened JsValues
  import opened Descriptors
  import opened Matching
  import opened ArgCheck

  /** The `TypeError`s the core raises: a failed guard, carrying its `details`
      (expected descriptors and actual arguments), a call of a non-function, or one
      raised while matching an argument (a strategy walk that ends with a value that
      is not a function, or `instanceof` on a function without a `prototype` object). */
  datatype TypeError =
    | TypeMismatch(expected: seq<Desc>, arguments: seq<Value>)
    | NotCallable(callee: Value)
    | MatchingError

  /** What one call through the core does. Foreign code is not run: `Called` means
      the function runs with these arguments and receiver and its result is the
      call's result; `HookCalled` means the error hook runs and the call then
      yields undefined. */
  datatype Outcome =
    | Called(fn: ObjectId, args: seq<Value>, receiver: Value)
    | HookCalled(hook: ObjectId, error: TypeError, args: seq<Value>, types: seq<Desc>)
    | Threw(error: TypeError)
    | Returned(v: Value)

  /** The error-hook slot: the default callback, which rethrows, or a user value. */
  datatype Hook = Rethrow | UserHook(callback: Value)

  /** A wrapper built by `typeChecked(types, fn)`, with its own hook slot. */
  datatype Guard = Guard(types: seq<Desc>, fn: ObjectId, hook: Hook)

  /** `typeChecked(types, fn)`: a fresh wrapper whose hook rethrows. */
  function TypeChecked(types: seq<Desc>, fn: ObjectId): Guard {
    Guard(types, fn, Rethrow)
  }

  /** `onError(cb)`: a truthy callback replaces the hook, a falsy one restores the
      rethrowing default; the wrapper itself is returned. */
  function OnError(g: Guard, callback: Value): (g': Guard)
    ensures g'.types == g.types && g'.fn == g.fn
    ensures g'.hook.UserHook? <==> Truthy(callback)
    ensures g'.hook.UserHook? ==> g'.hook.callback == callback
  {
    if Truthy(callback) then g.(hook := UserHook(callback)) else g.(hook := Rethrow)
  }

  /** Calling the wrapper with `args` and receiver `receiver`. A throw from the
      check itself escapes before the hook is consulted. */
  function GuardedCall(reg: seq<Strategy>, g: Guard, args: seq<Value>, receiver: Value): (out: Outcome)
    ensures out.Called? <==> CheckTypes(reg, g.types, args) == Yes
    ensures out.Called? ==> out == Called(g.fn, args, receiver)
    ensures out == Threw(MatchingError) <==> CheckTypes(reg, g.types, args) == Raised
    ensures !out.Returned?
    ensures out.HookCalled? ==>
      out.error == TypeMismatch(g.types, args) && out.args == args && out.types == g.types
      && g.hook == UserHook(Func(out.hook))
    ensures out.Threw? && out.error != MatchingError ==>
      if g.hook.Rethrow? then out.error == TypeMismatch(g.types, args)
      else out.error == NotCallable(g.hook.callback) && !g.hook.callback.Func?
  {
    match CheckTypes(reg, g.types, args)
    case Yes => Called(g.fn, args, receiver)
    case Raised => Threw(MatchingError)
    case No =>
      var error := TypeMismatch(g.types, args);
      match g.hook
      case Rethrow => Threw(error)
      case UserHook(cb) =>
        if cb.Func? then HookCalled(cb.id, error, args, g.types) else Threw(NotCallable(cb))
  }

  /** A fresh wrapper throws a `TypeError` carrying the expected descriptors and the
      actual arguments on any call that fails the check. */
  lemma FreshGuardThrowsOnMismatch(reg: seq<Strategy>, types: seq<Desc>, fn: ObjectId, args: seq<Value>, receiver: Value)
    requires CheckTypes(reg, types, args) == No
    ensures GuardedCall(reg, TypeChecked(types, fn), args, receiver) == Threw(TypeMismatch(types, args))
  {
  }

  /** After `onError(h)` with a function `h`, a failing call invokes `h` with the
      error, the arguments and the descriptors, and does not throw. */
  lemma HookReplacesThrow(reg: seq<Strategy>, g: Guard, h: ObjectId, args: seq<Value>, receiver: Value)
    requires CheckTypes(reg, g.types, args) == No
    ensures GuardedCall(reg, OnError(g, Func(h)), args, receiver)
      == HookCalled(h, TypeMismatch(g.types, args), args, g.types)
  {
  }

  /** A throw from the check is not a failed check: it escapes whatever hook is
      installed. */
  lemma MatchingErrorBypassesHook(reg: seq<Strategy>, g: Guard, callback: Value, args: seq<Value>, receiver: Value)
    requires CheckTypes(reg, g.types, args) == Raised
    ensures GuardedCall(reg, OnError(g, callback), args, receiver) == Threw(MatchingError)
  {
  }

  /** `onError` with a falsy value makes the wrapper behave as a fresh one again. */
  lemma OnErrorFalsyRestoresDefault(reg: seq<Strategy>, g: Guard, callback: Value, args: seq<Value>, receiver: Value)
    requires !Truthy(callback)
    ensures GuardedCall(reg, OnError(g, callback), args, receiver)
      == GuardedCall(reg, TypeChecked(g.types, g.fn), args, receiver)
  {
  }

  /** The hook is only consulted on failure: a passing call is the same whatever
      `onError` installed. */
  lemma HookIrrelevantOnPass(reg: seq<Strategy>, g: Guard, callback: Value, args: seq<Value>, receiver: Value)
    requires CheckTypes(reg, g.types, args) == Yes
    ensures GuardedCall(reg, OnError(g, callback), args, receiver) == GuardedCall(reg, g, args, receiver)
    ensures GuardedCall(reg, g, args, receiver) == Called(g.fn, args, receiver)
  {
  }

}

=== FILE: matching.dfy ===
/** `matchType`: resolving a descriptor to a predicate by walking an ordered,
    append-only list of strategies; the first strategy that claims the descriptor
    builds the predicate. */
module Matching {

  import opened Optional
  import opened JsValues
  import opened Descriptors

  /** The predicate a strategy builds, as data. Each variant is one of the closures
      the source returns; `Eval` applies it. */
  datatype Plan =
    | ByKind(kind: Kind)
    | Always
    | AnyOf(alts: seq<Desc>)
    | ByPredicate(pred: Value -> PredResult)
    | ByTypeof(name: string)
    | ByInstance(ctor: Desc)
    | SameAs(target: Value)
    | ByCustom(test: Value -> bool)
      /** `() => false`, what the curried form returns for a descriptor no strategy claims. */
    | Never

  function PlanSize(p: Plan): nat {
    match p
    case AnyOf(alts) => 1 + SizeAll(alts)
    case _ => 0
  }

  /** What a registered `match` returns: `null`, another falsy value (`undefined`,
      `false`, `0`, `""`), a truthy value that is not a function, or a predicate
      (whose result is taken for its truthiness). */
  datatype Reply = NullReply | FalsyReply | TruthyReply | FnReply(test: Value -> bool)

  /** A matching strategy: one of the seven built-in `{case, match}` pairs, or one
      registered at run time, whose `case` and `match` are foreign functions. A
      registered `match` receives the descriptor and the value under test (undefined
      in the curried form). */
  datatype Strategy =
    | KindCase
    | AnyCase
    | EitherCase
    | MatcherCase
    | TagCase
    | FunctionCase
    | NullishCase
    | Custom(accepts: Desc -> bool, build: (Desc, Value) -> Reply)

  /** The initial strategy list, in priority order. */
  const Builtins: seq<Strategy> :=
    [KindCase, AnyCase, EitherCase, MatcherCase, TagCase, FunctionCase, NullishCase]

  /** A strategy's `case`. */
  predicate Accepts(s: Strategy, d: Desc) {
    match s
    case KindCase => d.Native?
    case AnyCase => d.AnyType?
    case EitherCase => d.Either?
    case MatcherCase => d.Matcher?
    case TagCase => d.Tag?
    case FunctionCase => IsFunctionDesc(d)
    case NullishCase => d.NullType? || d.UndefinedType?
    case Custom(accepts, _) => accepts(d)
  }

  /** The value the walk over the strategies carries: `null` (its initial value, and
      what a strategy whose `case` rejects the descriptor yields), a falsy value
      other than `null`, a truthy value that is not a function, or a predicate. */
  datatype Found =
    | NoMatcher
    | FalsyMatcher
    | NotAFunction
    | Pred(plan: Plan)

  /** `found ? found : ...`: a truthy value stops the walk. */
  predicate Settled(f: Found) {
    f.NotAFunction? || f.Pred?
  }

  /** A strategy's `match`, called only on a descriptor its `case` accepted. `hint`
      is the value under test. */
  function Build(s: Strategy, d: Desc, hint: Value): (r: Found)
    requires Accepts(s, d)
    ensures !s.Custom? ==> r.Pred?
    ensures r.Pred? ==> PlanSize(r.plan) < Size(d)
  {
    match s
    case KindCase => Pred(ByKind(d.kind))
    case AnyCase => Pred(Always)
    case EitherCase => Pred(AnyOf(d.alts))
    case MatcherCase => Pred(ByPredicate(d.pred))
    case TagCase => Pred(ByTypeof(d.name))
    case FunctionCase => Pred(ByInstance(d))
    case NullishCase => Pred(SameAs(if d.NullType? then Null else Undefined))
    case Custom(_, build) =>
      match build(d, hint)
      case NullReply => NoMatcher
      case FalsyReply => FalsyMatcher
      case TruthyReply => NotAFunction
      case FnReply(test) => Pred(ByCustom(test))
  }

  /** One step of the walk from a falsy value: `tmc.case(type) ? tmc.match(type, val) : null`. */
  function Step(s: Strategy, d: Desc, hint: Value): (r: Found)
    ensures r.Pred? ==> PlanSize(r.plan) < Size(d)
  {
    if Accepts(s, d) then Build(s, d, hint) else NoMatcher
  }

  /** The strategy accepts the descriptor and its `match` returns a truthy value. */
  predicate Claims(s: Strategy, d: Desc, hint: Value) {
    Settled(Step(s, d, hint))
  }

  /** The `reduce` over the strategy list from the value `found`: once it is truthy
      later strategies are not consulted; a falsy one is overwritten by the next step. */
  function Reduce(reg: seq<Strategy>, d: Desc, hint: Value, found: Found): (r: Found)
    requires found.Pred? ==> PlanSize(found.plan) < Size(d)
    ensures r.Pred? ==> PlanSize(r.plan) < Size(d)
  {
    if |reg| == 0 then found
    else Reduce(reg[1..], d, hint, if Settled(found) then found else Step(reg[0], d, hint))
  }

  /** The `reduce` started from `null`. */
  function Resolve(reg: seq<Strategy>, d: Desc, hint: Value): (r: Found)
    ensures r.Pred? ==> PlanSize(r.plan) < Size(d)
  {
    Reduce(reg, d, hint, NoMatcher)
  }

  /** What `matchType(type, val)` yields: a truthy or a falsy answer, or a thrown
      `TypeError`. */
  datatype Verdict = Yes | No | Raised

  /** An answer that does not throw. */
  function Answer(b: bool): Verdict {
    if b then Yes else No
  }

  /** `v instanceof ctor`, for the function descriptors. Primitives are instances of
      nothing; every object is an instance of `Object`; no value has `Any` on its
      prototype chain; an object tested against a function whose `prototype` is not
      an object makes `instanceof` throw. */
  function InstanceOf(v: Value, ctor: Desc): Verdict {
    match ctor
    case Native(k) =>
      (match k
       case ObjectKind => Answer(KindHolds(ObjectKind, v))
       case FunctionKind => Answer(v.Func?)
       case ArrayKind => Answer(v.Arr?)
       case DateKind => Answer(v.Date?)
       case RegExpKind => Answer(v.RegExp?)
       case _ => No)
    case Class(c, prototyped) =>
      if !KindHolds(ObjectKind, v) then No
      else if !prototyped then Raised
      else Answer(v.Instance? && c in v.ancestry)
    case _ => No
  }

  /** `matchType(type, val)`: the direct form. `null` from the walk answers false;
      any other value that is not a function throws when it is called on `val`. */
  function MatchType(reg: seq<Strategy>, d: Desc, v: Value): Verdict
    decreases Size(d)
  {
    match Resolve(reg, d, v)
    case NoMatcher => No
    case Pred(p) => Eval(reg, p, v)
    case _ => Raised
  }

  /** `matchType(type)`: the curried form, resolved with `val` undefined. `null`
      becomes `() => false`; any other value the walk ends with is returned as is. */
  function MatchTypeFn(reg: seq<Strategy>, d: Desc): Found {
    match Resolve(reg, d, Undefined)
    case NoMatcher => Pred(Never)
    case r => r
  }

  /** Calling what the curried form returned: only a predicate can be called. */
  function Apply(reg: seq<Strategy>, f: Found, v: Value): Verdict {
    match f
    case Pred(p) => Eval(reg, p, v)
    case _ => Raised
  }

  /** Calling a resolved predicate. `reg` is the strategy list at call time: the
      `Either` closure calls `matchType` again for each alternative. */
  function Eval(reg: seq<Strategy>, p: Plan, v: Value): Verdict
    decreases PlanSize(p)
  {
    match p
    case ByKind(k) => Answer(KindHolds(k, v))
    case Always => Yes
    case AnyOf(alts) => AnyMatch(reg, alts, v)
    case ByPredicate(pred) => Answer(pred(v) == Returns(true))
    case ByTypeof(name) => Answer(Typeof(v) == name)
    case ByInstance(ctor) => InstanceOf(v, ctor)
    case SameAs(target) => Answer(v == target)
    case ByCustom(test) => Answer(test(v))
    case Never => No
  }

  /** `types.some(t => matchType(t, val))`: stops at the first truthy answer, and a
      throw escapes. */
  function AnyMatch(reg: seq<Strategy>, alts: seq<Desc>, v: Value): Verdict
    decreases SizeAll(alts)
  {
    if |alts| == 0 then No
    else
      match MatchType(reg, alts[0], v)
      case No => AnyMatch(reg, alts[1..], v)
      case other => other
  }

  /** A strategy list reachable from the initial one: the built-ins first, then only
      strategies registered at run time. */
  ghost predicate ValidRegistry(reg: seq<Strategy>) {
    && |reg| >= |Builtins|
    && (forall i | 0 <= i < |Builtins| :: reg[i] == Builtins[i])
    && (forall i | |Builtins| <= i < |reg| :: reg[i].Custom?)
  }

  /** A candidate handed to `addTypeMatchCase`. `None` stands for a property that is
      missing or is not a function. */
  datatype StrategyObject =
    | NotAnObject
    | Obj(caseProp: Option<Desc -> bool>, matchProp: Option<(Desc, Value) -> Reply>)

  /** The guard of `addTypeMatchCase`: an object whose `case` and `match` are functions. */
  predicate IsStrategyShaped(o: StrategyObject) {
    o.Obj? && o.caseProp.Some? && o.matchProp.Some?
  }

  /** `addTypeMatchCase(obj)`: appends a well-shaped strategy at the lowest priority;
      anything else is dropped silently. */
  function AddTypeMatchCase(reg: seq<Strategy>, o: StrategyObject): (r: seq<Strategy>)
    ensures |r| == |reg| + 1 <==> IsStrategyShaped(o)
    ensures |r| == |reg| || |r| == |reg| + 1
    ensures r[..|reg|] == reg
    ensures IsStrategyShaped(o) ==> r[|reg|] == Custom(o.caseProp.value, o.matchProp.value)
    ensures ValidRegistry(reg) ==> ValidRegistry(r)
  {
    if IsStrategyShaped(o) then reg + [Custom(o.caseProp.value, o.matchProp.value)] else reg
  }

}

=== FILE: matching_facts.dfy ===
/** What `matchType` promises: first-claim resolution, the truth table of every
    descriptor kind, agreement of the two call forms, and stability of decisions
    when strategies are appended. */
module MatchingFacts {

  import opened JsValues
  import opened Descriptors
  import opened Matching

  // ---------------------------------------------------------------------------
  // First claim wins

  /** A truthy value is kept to the end of the walk. */
  lemma {:induction false} ReduceKeepsSettled(reg: seq<Strategy>, d: Desc, hint: Value, found: Found)
    requires Settled(found) && (found.Pred? ==> PlanSize(found.plan) < Size(d))
    ensures Reduce(reg, d, hint, found) == found
    decreases |reg|
  {
    if |reg| > 0 {
      ReduceKeepsSettled(reg[1..], d, hint, found);
    }
  }

  /** From a falsy value, strategies that do not claim the descriptor are skipped, as
      long as one strategy is left. */
  lemma {:induction false} ReduceSkipsUnclaiming(reg: seq<Strategy>, d: Desc, hint: Value, found: Found, i: nat)
    requires !Settled(found) && i < |reg|
    requires forall j | 0 <= j < i :: !Claims(reg[j], d, hint)
    ensures Reduce(reg, d, hint, found) == Reduce(reg[i..], d, hint, NoMatcher)
    decreases i
  {
    if i > 0 {
      assert !Claims(reg[0], d, hint);
      forall j | 0 <= j < i - 1
        ensures !Claims(reg[1..][j], d, hint)
      {
        assert reg[1..][j] == reg[j + 1];
      }
      ReduceSkipsUnclaiming(reg[1..], d, hint, Step(reg[0], d, hint), i - 1);
      assert reg[1..][i - 1..] == reg[i..];
    }
  }

  /** Strategies that do not claim the descriptor have no influence on the result of
      the walk when a later one is left. */
  lemma ResolveSkipsUnclaiming(reg: seq<Strategy>, d: Desc, hint: Value, i: nat)
    requires i < |reg|
    requires forall j | 0 <= j < i :: !Claims(reg[j], d, hint)
    ensures Resolve(reg, d, hint) == Resolve(reg[i..], d, hint)
  {
    ReduceSkipsUnclaiming(reg, d, hint, NoMatcher, i);
  }

  /** The result is what the first strategy, in list order, that claims the descriptor
      builds. */
  lemma ResolveIsFirstClaim(reg: seq<Strategy>, d: Desc, hint: Value, i: nat)
    requires i < |reg| && Claims(reg[i], d, hint)
    requires forall j | 0 <= j < i :: !Claims(reg[j], d, hint)
    ensures Resolve(reg, d, hint) == Step(reg[i], d, hint)
  {
    ResolveSkipsUnclaiming(reg, d, hint, i);
    ReduceKeepsSettled(reg[i..][1..], d, hint, Step(reg[i], d, hint));
  }

  /** A walk from `found` ends falsy iff it starts falsy and no strategy claims the
      descriptor, and then it ends with what the last strategy yields. */
  lemma {:induction false} ReduceFalsy(reg: seq<Strategy>, d: Desc, hint: Value, found: Found)
    requires found.Pred? ==> PlanSize(found.plan) < Size(d)
    ensures !Settled(Reduce(reg, d, hint, found)) <==>
      !Settled(found) && forall i | 0 <= i < |reg| :: !Claims(reg[i], d, hint)
    ensures !Settled(found) && (forall i | 0 <= i < |reg| :: !Claims(reg[i], d, hint)) ==>
      Reduce(reg, d, hint, found) == if |reg| == 0 then found else Step(reg[|reg| - 1], d, hint)
    decreases |reg|
  {
    if |reg| > 0 {
      var next := if Settled(found) then found else Step(reg[0], d, hint);
      ReduceFalsy(reg[1..], d, hint, next);
      assert forall i | 1 <= i < |reg| :: reg[1..][i - 1] == reg[i];
      if !Settled(found) && exists i | 0 <= i < |reg| :: Claims(reg[i], d, hint) {
        var i :| 0 <= i < |reg| && Claims(reg[i], d, hint);
        if i > 0 {
          assert Claims(reg[1..][i - 1], d, hint);
        }
      }
    }
  }

  /** When no strategy claims the descriptor, the walk ends with what the LAST strategy
      yields: `null` if its `case` rejects the descriptor, but the falsy value itself
      if its `match` returned one. So `null`, which alone means "unclaimed", comes out
      exactly when no strategy claims the descriptor and the last one does not return
      a falsy value other than `null`. */
  lemma ResolveUnclaimed(reg: seq<Strategy>, d: Desc, hint: Value)
    ensures Settled(Resolve(reg, d, hint)) <==> exists i | 0 <= i < |reg| :: Claims(reg[i], d, hint)
    ensures (forall i | 0 <= i < |reg| :: !Claims(reg[i], d, hint)) ==>
      Resolve(reg, d, hint) == if |reg| == 0 then NoMatcher else Step(reg[|reg| - 1], d, hint)
    ensures Resolve(reg, d, hint).NoMatcher? <==>
      && (forall i | 0 <= i < |reg| :: !Claims(reg[i], d, hint))
      && (|reg| == 0 || Step(reg[|reg| - 1], d, hint).NoMatcher?)
  {
    ReduceFalsy(reg, d, hint, NoMatcher);
  }

  /** The closed pattern match the built-in strategies amount to, in their order. */
  function BuiltinPlan(d: Desc): Plan
    requires !d.Other?
  {
    match d
    case Native(k) => ByKind(k)
    case AnyType => Always
    case Either(alts) => AnyOf(alts)
    case Matcher(pred) => ByPredicate(pred)
    case Tag(name) => ByTypeof(name)
    case Class(_, _) => ByInstance(d)
    case NullType => SameAs(Null)
    case UndefinedType => SameAs(Undefined)
  }

  /** Position of the first built-in strategy that accepts `d`. */
  function FirstBuiltin(d: Desc): nat {
    match d
    case Native(_) => 0
    case AnyType => 1
    case Either(_) => 2
    case Matcher(_) => 3
    case Tag(_) => 4
    case Class(_, _) => 5
    case _ => 6
  }

  /** Every descriptor other than `Other` is decided by a built-in strategy, whatever
      has been registered since: native constructors as kinds before the generic
      function case, `Any` before `instanceof`, `null` and `undefined` last. */
  lemma ResolveBuiltin(reg: seq<Strategy>, d: Desc, hint: Value)
    requires ValidRegistry(reg) && !d.Other?
    ensures Resolve(reg, d, hint) == Pred(BuiltinPlan(d))
  {
    var i := FirstBuiltin(d);
    forall j | 0 <= j < i
      ensures !Claims(reg[j], d, hint)
    {
      assert reg[j] == Builtins[j];
    }
    assert reg[i] == Builtins[i];
    ResolveIsFirstClaim(reg, d, hint, i);
  }

  /** Registered strategies alone decide `Other` descriptors. */
  lemma ExtensionsDecideOnlyOther(reg: seq<Strategy>, id: ObjectId, hint: Value)
    requires ValidRegistry(reg)
    ensures Resolve(reg, Other(id), hint) == Resolve(reg[|Builtins|..], Other(id), hint)
  {
    forall j | 0 <= j < |Builtins|
      ensures !Claims(reg[j], Other(id), hint)
    {
      assert reg[j] == Builtins[j];
    }
    if |reg| > |Builtins| {
      ResolveSkipsUnclaiming(reg, Other(id), hint, |Builtins|);
    } else {
      ResolveUnclaimed(reg, Other(id), hint);
      assert reg[|reg| - 1] == NullishCase;
    }
  }

  /** With only the built-in strategies, an `Other` descriptor matches nothing, in
      both call forms: `false`, and the predicate `() => false`. */
  lemma BuiltinsRejectOther(id: ObjectId, v: Value)
    ensures MatchType(Builtins, Other(id), v) == No
    ensures MatchTypeFn(Builtins, Other(id)) == Pred(Never)
    ensures Apply(Builtins, MatchTypeFn(Builtins, Other(id)), v) == No
  {
    ExtensionsDecideOnlyOther(Builtins, id, v);
    ExtensionsDecideOnlyOther(Builtins, id, Undefined);
  }

  /** The walk over one strategy ends with what it yields. */
  lemma ResolveOne(s: Strategy, d: Desc, hint: Value)
    ensures Resolve([s], d, hint) == Step(s, d, hint)
  {
    assert [s][1..] == [];
    assert Resolve([s], d, hint) == Reduce([], d, hint, Step(s, d, hint));
  }

  /** The walk over two strategies: the first if it claims, otherwise the second. */
  lemma ResolveTwo(s: Strategy, t: Strategy, d: Desc, hint: Value)
    ensures Resolve([s, t], d, hint) == if Claims(s, d, hint) then Step(s, d, hint) else Step(t, d, hint)
  {
    assert [s, t][1..] == [t];
    assert [t][1..] == [];
    assert Resolve([s, t], d, hint) == Reduce([t], d, hint, Step(s, d, hint));
    if Claims(s, d, hint) {
      ReduceKeepsSettled([t], d, hint, Step(s, d, hint));
    } else {
      assert Reduce([t], d, hint, Step(s, d, hint)) == Reduce([], d, hint, Step(t, d, hint));
    }
  }

  /** A registered strategy for `Other` descriptors whose `match` returns a predicate
      only when it is handed a truthy value, and `undefined` otherwise. */
  const Decliner: Strategy :=
    Custom((d: Desc) => d.Other?, (d: Desc, hint: Value) => if Truthy(hint) then FnReply((v: Value) => true) else FalsyReply)

  /** A registered strategy whose `case` accepts nothing. */
  const Bystander: Strategy :=
    Custom((d: Desc) => false, (d: Desc, hint: Value) => NullReply)

  /** Only `null` counts as "unclaimed" once the walk is over: a last strategy whose
      `match` returns `undefined` makes the direct form throw and the curried form
      return `undefined`, while the same strategy followed by one that rejects the
      descriptor lets the walk end with `null`, and `false` is the answer. */
  lemma FalsyMatchThrowsOnlyWhenLast(id: ObjectId)
    ensures ValidRegistry(Builtins + [Decliner]) && ValidRegistry(Builtins + [Decliner, Bystander])
    ensures MatchType(Builtins + [Decliner], Other(id), Num(5)) == Yes
    ensures MatchType(Builtins + [Decliner], Other(id), Num(0)) == Raised
    ensures MatchTypeFn(Builtins + [Decliner], Other(id)) == FalsyMatcher
    ensures MatchType(Builtins + [Decliner, Bystander], Other(id), Num(0)) == No
    ensures MatchTypeFn(Builtins + [Decliner, Bystander], Other(id)) == Pred(Never)
  {
    var one := Builtins + [Decliner];
    var two := Builtins + [Decliner, Bystander];
    assert ValidRegistry(one);
    assert ValidRegistry(two);
    assert one[|Builtins|..] == [Decliner];
    assert two[|Builtins|..] == [Decliner, Bystander];
    ExtensionsDecideOnlyOther(one, id, Num(5));
    ExtensionsDecideOnlyOther(one, id, Num(0));
    ExtensionsDecideOnlyOther(one, id, Undefined);
    ResolveOne(Decliner, Other(id), Num(5));
    ResolveOne(Decliner, Other(id), Num(0));
    ResolveOne(Decliner, Other(id), Undefined);
    ExtensionsDecideOnlyOther(two, id, Num(0));
    ExtensionsDecideOnlyOther(two, id, Undefined);
    ResolveTwo(Decliner, Bystander, Other(id), Num(0));
    ResolveTwo(Decliner, Bystander, Other(id), Undefined);
  }

  // ---------------------------------------------------------------------------
  // Truth tables of the descriptor kinds

  /** A native constructor is tested as a kind. */
  lemma NativeMatchesByKind(reg: seq<Strategy>, k: Kind, v: Value)
    requires ValidRegistry(reg)
    ensures MatchType(reg, Native(k), v) == Answer(KindHolds(k, v))
  {
    ResolveBuiltin(reg, Native(k), v);
  }

  /** `Object` accepts every non-primitive (functions, arrays, dates, regexps, plain
      objects, `arguments`, instances) and rejects null, undefined, booleans, numbers
      and strings; `Array` rejects `arguments`. */
  lemma ObjectAndArrayTables(reg: seq<Strategy>, v: Value)
    requires ValidRegistry(reg)
    ensures MatchType(reg, Native(ObjectKind), v) == Answer(!(v.Null? || v.Undefined? || v.Bool? || v.Num? || v.Str?))
    ensures MatchType(reg, Native(ArrayKind), v) == Answer(v.Arr?)
    ensures v.ArgumentsObj? ==> MatchType(reg, Native(ObjectKind), v) == Yes && MatchType(reg, Native(ArrayKind), v) == No
  {
    NativeMatchesByKind(reg, ObjectKind, v);
    NativeMatchesByKind(reg, ArrayKind, v);
  }

  /** The kind case must come before the generic function case: `Number` is a
      function, and as an `instanceof` test it would reject every number. */
  lemma KindCaseShadowsInstanceof(reg: seq<Strategy>, n: int)
    requires ValidRegistry(reg)
    ensures Accepts(FunctionCase, Native(NumberKind))
    ensures MatchType(reg, Native(NumberKind), Num(n)) == Yes
    ensures Eval(reg, ByInstance(Native(NumberKind)), Num(n)) == No
  {
    NativeMatchesByKind(reg, NumberKind, Num(n));
  }

  /** `Any` matches every value, null and undefined included, although `Any` is a
      function that no value is an instance of. */
  lemma AnyMatchesEverything(reg: seq<Strategy>, v: Value)
    requires ValidRegistry(reg)
    ensures MatchType(reg, AnyType, v) == Yes
    ensures Accepts(FunctionCase, AnyType) && InstanceOf(v, AnyType) == No
  {
    ResolveBuiltin(reg, AnyType, v);
  }

  /** `null` matches only null and `undefined` only undefined. */
  lemma NullishDescriptors(reg: seq<Strategy>, v: Value)
    requires ValidRegistry(reg)
    ensures MatchType(reg, NullType, v) == Answer(v == Null)
    ensures MatchType(reg, UndefinedType, v) == Answer(v == Undefined)
  {
    ResolveBuiltin(reg, NullType, v);
    ResolveBuiltin(reg, UndefinedType, v);
  }

  /** A string descriptor is compared against `typeof`. */
  lemma TagComparesTypeof(reg: seq<Strategy>, name: string, v: Value)
    requires ValidRegistry(reg)
    ensures MatchType(reg, Tag(name), v) == Answer(Typeof(v) == name)
  {
    ResolveBuiltin(reg, Tag(name), v);
  }

  /** Any other function is used with `instanceof`. A primitive, null or undefined is
      an instance of nothing. An object matches exactly when the constructor is on
      its prototype chain, provided the function has a `prototype` object; otherwise
      `instanceof` throws. */
  lemma ClassUsesInstanceof(reg: seq<Strategy>, c: ObjectId, prototyped: bool, v: Value)
    requires ValidRegistry(reg)
    ensures !KindHolds(ObjectKind, v) ==> MatchType(reg, Class(c, prototyped), v) == No
    ensures prototyped ==> MatchType(reg, Class(c, prototyped), v) == Answer(v.Instance? && c in v.ancestry)
    ensures !prototyped ==> (MatchType(reg, Class(c, prototyped), v) == Raised <==> KindHolds(ObjectKind, v))
  {
    ResolveBuiltin(reg, Class(c, prototyped), v);
  }

  /** `some` over the alternatives: `false` iff every alternative answers `false`;
      otherwise the answer of the first alternative that does not, whether a match or
      a throw. */
  lemma {:induction false} AnyMatchIffSome(reg: seq<Strategy>, alts: seq<Desc>, v: Value)
    ensures AnyMatch(reg, alts, v) == No <==> forall i | 0 <= i < |alts| :: MatchType(reg, alts[i], v) == No
    ensures AnyMatch(reg, alts, v) != No ==> exists k | 0 <= k < |alts| ::
      && AnyMatch(reg, alts, v) == MatchType(reg, alts[k], v)
      && forall j | 0 <= j < k :: MatchType(reg, alts[j], v) == No
    decreases |alts|
  {
    if |alts| > 0 {
      AnyMatchIffSome(reg, alts[1..], v);
      assert forall i | 1 <= i < |alts| :: alts[1..][i - 1] == alts[i];
      if MatchType(reg, alts[0], v) == No {
        if AnyMatch(reg, alts, v) != No {
          var k :| 0 <= k < |alts[1..]| && AnyMatch(reg, alts[1..], v) == MatchType(reg, alts[1..][k], v)
            && forall j | 0 <= j < k :: MatchType(reg, alts[1..][j], v) == No;
          assert alts[1..][k] == alts[k + 1];
          forall j | 0 <= j < k + 1
            ensures MatchType(reg, alts[j], v) == No
          {
            if j > 0 {
              assert alts[1..][j - 1] == alts[j];
            }
          }
        }
      } else {
        assert AnyMatch(reg, alts, v) == MatchType(reg, alts[0], v);
      }
    }
  }

  /** `Either(t1..tn)` answers `false` iff every alternative does. When no
      alternative throws, it matches iff some alternative matches; a throw from an
      alternative tried before any match escapes. An empty `Either` matches nothing. */
  lemma EitherIsDisjunction(reg: seq<Strategy>, alts: seq<Desc>, v: Value)
    requires ValidRegistry(reg)
    ensures MatchType(reg, Either(alts), v) == No <==> forall i | 0 <= i < |alts| :: MatchType(reg, alts[i], v) == No
    ensures (forall i | 0 <= i < |alts| :: MatchType(reg, alts[i], v) != Raised) ==>
      (MatchType(reg, Either(alts), v) == Yes <==> exists i | 0 <= i < |alts| :: MatchType(reg, alts[i], v) == Yes)
    ensures MatchType(reg, Either(alts), v) == Raised ==> exists k | 0 <= k < |alts| ::
      MatchType(reg, alts[k], v) == Raised && forall j | 0 <= j < k :: MatchType(reg, alts[j], v) == No
    ensures |alts| == 0 ==> MatchType(reg, Either(alts), v) == No
  {
    ResolveBuiltin(reg, Either(alts), v);
    AnyMatchIffSome(reg, alts, v);
  }

  /** `Matcher(p)` yields the truthiness of `p(v)`, and `false` when `p` throws: the
      exception never escapes. */
  lemma MatcherSwallowsThrows(reg: seq<Strategy>, pred: Value -> PredResult, v: Value)
    requires ValidRegistry(reg)
    ensures MatchType(reg, Matcher(pred), v) == Answer(pred(v).Returns? && pred(v).truthy)
    ensures pred(v).Throws? ==> MatchType(reg, Matcher(pred), v) == No
  {
    ResolveBuiltin(reg, Matcher(pred), v);
  }

  // ---------------------------------------------------------------------------
  // The two call forms

  /** A strategy whose `match` ignores the value it is handed; the built-in ones all do. */
  ghost predicate HintFree(s: Strategy) {
    s.Custom? ==> forall d: Desc, hint: Value :: s.build(d, hint) == s.build(d, Undefined)
  }

  ghost predicate IgnoresHint(reg: seq<Strategy>) {
    forall i | 0 <= i < |reg| :: HintFree(reg[i])
  }

  lemma StepIgnoresHint(s: Strategy, d: Desc, hint: Value)
    requires HintFree(s)
    ensures Step(s, d, hint) == Step(s, d, Undefined)
  {
  }

  lemma {:induction false} ReduceIgnoresHint(reg: seq<Strategy>, d: Desc, hint: Value, found: Found)
    requires IgnoresHint(reg) && (found.Pred? ==> PlanSize(found.plan) < Size(d))
    ensures Reduce(reg, d, hint, found) == Reduce(reg, d, Undefined, found)
    decreases |reg|
  {
    if |reg| > 0 {
      StepIgnoresHint(reg[0], d, hint);
      assert IgnoresHint(reg[1..]) by {
        forall i | 0 <= i < |reg[1..]|
          ensures HintFree(reg[1..][i])
        {
          assert reg[1..][i] == reg[i + 1];
        }
      }
      var next := if Settled(found) then found else Step(reg[0], d, hint);
      ReduceIgnoresHint(reg[1..], d, hint, next);
    }
  }

  /** If no strategy's `match` reads the value it is handed, the walk does not depend
      on that value. */
  lemma ResolveIgnoresHint(reg: seq<Strategy>, d: Desc, hint: Value)
    requires IgnoresHint(reg)
    ensures Resolve(reg, d, hint) == Resolve(reg, d, Undefined)
  {
    ReduceIgnoresHint(reg, d, hint, NoMatcher);
  }

  /** `matchType(d)(v)` and `matchType(d, v)` agree, including the `() => false` of
      an unclaimed descriptor and the throw of a walk that ends with a value that is
      not a function, as long as no registered strategy's `match` reads the value it
      is handed (the built-in ones never do). */
  lemma CurriedAndDirectAgree(reg: seq<Strategy>, d: Desc, v: Value)
    requires IgnoresHint(reg)
    ensures Apply(reg, MatchTypeFn(reg, d), v) == MatchType(reg, d, v)
  {
    ResolveIgnoresHint(reg, d, v);
  }

  /** A registered strategy that claims `Other` descriptors only when it is handed a
      value. */
  const HintReader: Strategy :=
    Custom((d: Desc) => d.Other?, (d: Desc, hint: Value) => if hint == Undefined then NullReply else FnReply((v: Value) => true))

  /** The curried form hands `match` undefined, so such a strategy makes the two
      forms disagree. */
  lemma HintReaderSplitsTheForms(id: ObjectId)
    ensures ValidRegistry(Builtins + [HintReader])
    ensures MatchType(Builtins + [HintReader], Other(id), Num(1)) == Yes
    ensures Apply(Builtins + [HintReader], MatchTypeFn(Builtins + [HintReader], Other(id)), Num(1)) == No
  {
    var reg := Builtins + [HintReader];
    assert ValidRegistry(reg);
    ExtensionsDecideOnlyOther(reg, id, Num(1));
    ExtensionsDecideOnlyOther(reg, id, Undefined);
    assert reg[|Builtins|..] == [HintReader];
    ResolveOne(HintReader, Other(id), Num(1));
    ResolveOne(HintReader, Other(id), Undefined);
  }

  // ---------------------------------------------------------------------------
  // Appending strategies

  /** Walking a concatenation is walking the second list from where the first ended. */
  lemma {:induction false} ReduceConcat(reg: seq<Strategy>, ext: seq<Strategy>, d: Desc, hint: Value, found: Found)
    requires found.Pred? ==> PlanSize(found.plan) < Size(d)
    ensures Reduce(reg + ext, d, hint, found) == Reduce(ext, d, hint, Reduce(reg, d, hint, found))
    decreases |reg|
  {
    if |reg| > 0 {
      assert (reg + ext)[0] == reg[0];
      assert (reg + ext)[1..] == reg[1..] + ext;
      ReduceConcat(reg[1..], ext, d, hint, if Settled(found) then found else Step(reg[0], d, hint));
    } else {
      assert reg + ext == ext;
    }
  }

  /** A claim once made is kept when strategies are appended. A falsy result is not:
      a later strategy can overwrite it. */
  lemma AppendKeepsResolution(reg: seq<Strategy>, ext: seq<Strategy>, d: Desc, hint: Value)
    requires Settled(Resolve(reg, d, hint))
    ensures Resolve(reg + ext, d, hint) == Resolve(reg, d, hint)
  {
    ReduceConcat(reg, ext, d, hint, NoMatcher);
    ReduceKeepsSettled(ext, d, hint, Resolve(reg, d, hint));
  }

  /** Appending strategies never changes the verdict for a descriptor the built-ins
      claim at every depth, even through `Either`, whose alternatives are resolved
      again at call time. */
  lemma {:induction false} ExtendingKeepsClosedMatches(reg: seq<Strategy>, ext: seq<Strategy>, d: Desc, v: Value)
    requires ValidRegistry(reg) && Closed(d)
    ensures MatchType(reg + ext, d, v) == MatchType(reg, d, v)
    decreases Size(d), 1
  {
    ResolveBuiltin(reg, d, v);
    AppendKeepsResolution(reg, ext, d, v);
    if d.Either? {
      ExtendingKeepsClosedAlternatives(reg, ext, d.alts, v);
    }
  }

  lemma {:induction false} ExtendingKeepsClosedAlternatives(reg: seq<Strategy>, ext: seq<Strategy>, alts: seq<Desc>, v: Value)
    requires ValidRegistry(reg) && forall i | 0 <= i < |alts| :: Closed(alts[i])
    ensures AnyMatch(reg + ext, alts, v) == AnyMatch(reg, alts, v)
    decreases SizeAll(alts), 0
  {
    if |alts| > 0 {
      ExtendingKeepsClosedMatches(reg, ext, alts[0], v);
      assert forall i | 0 <= i < |alts[1..]| :: alts[1..][i] == alts[i + 1];
      ExtendingKeepsClosedAlternatives(reg, ext, alts[1..], v);
    }
  }

  /** `addTypeMatchCase` cannot change how a closed descriptor matches. */
  lemma AddingStrategyKeepsClosedMatches(reg: seq<Strategy>, o: StrategyObject, d: Desc, v: Value)
    requires ValidRegistry(reg) && Closed(d)
    ensures MatchType(AddTypeMatchCase(reg, o), d, v) == MatchType(reg, d, v)
  {
    var r := AddTypeMatchCase(reg, o);
    assert r == reg + r[|reg|..];
    ExtendingKeepsClosedMatches(reg, r[|reg|..], d, v);
  }

}

=== FILE: optional.dfy ===
/** The usual Some/None wrapper, used for the properties a candidate strategy
    object may lack and for the optional name of a `when` clause. */
module Optional {

  datatype Option<+T> = None | Some(value: T)

}

=== FILE: overload.dfy ===
/** `overload`: an ordered clause table with first-match dispatch, a fallback
    default, and a companion object of named proxies handed to every clause. */
module Overload {

  import opened Optional
  import opened JsValues
  import opened Descriptors
  import opened Matching
  import opened ArgCheck
  import opened Guarded

  /** One `when` registration: a descriptor list and its handler. */
  datatype Clause = Clause(types: seq<Desc>, fn: ObjectId)

  /** The default: a wrapper built by `typeChecked`, or any value kept as is (a
      function is called, anything else is returned). */
  datatype DefaultSlot = Checked(guard: Guard) | Plain(v: Value)

  /** An entry of the companion object: its `default` property, or a named proxy. */
  datatype Entry = DefaultEntry(slot: DefaultSlot) | Proxy(fn: ObjectId)

  /** An overload table: clauses in registration order, the default the dispatcher
      falls back to, and the companion object `o` (identity and properties). */
  datatype Table = Table(clauses: seq<Clause>, fallback: DefaultSlot, companionId: ObjectId, companion: map<string, Entry>)

  /** The companion object as the value appended to every clause call. */
  function Companion(t: Table): Value {
    PlainObj(t.companionId)
  }

  /** The first argument of `overload`: a descriptor list (any array), or another value. */
  datatype FirstArg = DescList(ts: seq<Desc>) | Val(v: Value)

  /** How `overload(types, defaultFn)` settles its default. */
  function SettleDefault(first: FirstArg, second: Value): DefaultSlot {
    if first.DescList? && second.Func? then Checked(TypeChecked(first.ts, second.id))
    else if first.Val? && first.v.Func? && second == Undefined then Plain(first.v)
    else Plain(second)
  }

  /** `overload(types, defaultFn)`: an empty table whose companion holds the default.
      `companionId` is the identity of the fresh companion object. */
  function NewOverload(first: FirstArg, second: Value, companionId: ObjectId): (t: Table)
    requires first.Val? ==> !first.v.Arr?
    ensures t.clauses == [] && t.companionId == companionId
    ensures t.companion.Keys == {"default"} && t.companion["default"] == DefaultEntry(t.fallback)
  {
    var slot := SettleDefault(first, second);
    Table([], slot, companionId, map["default" := DefaultEntry(slot)])
  }

  /** A name that installs a proxy: `if (name)` on a string. */
  predicate Installs(name: Option<string>) {
    name.Some? && name.value != ""
  }

  /** The test `when` applies to its raw arguments to recognise the two-argument
      form `when(types, fn)`: `matchTypes([Array, Function], arguments)`. */
  predicate TwoArgumentForm(reg: seq<Strategy>, whenArgs: seq<Value>) {
    MatchTypes(reg, [Native(ArrayKind), Native(FunctionKind)], whenArgs) == Yes
  }

  /** `when(name, types, fn)`: appends a clause and, for a truthy name, installs
      `o[name]`. The two-argument form `when(types, fn)` is `When(t, None, types, fn)`. */
  function When(t: Table, name: Option<string>, types: seq<Desc>, fn: ObjectId): (t': Table)
    ensures t'.clauses == t.clauses + [Clause(types, fn)]
    ensures t'.fallback == t.fallback && t'.companionId == t.companionId
    ensures t'.companion.Keys == t.companion.Keys + (if Installs(name) then {name.value} else {})
    ensures forall k | k in t.companion && !(Installs(name) && k == name.value) :: t'.companion[k] == t.companion[k]
    ensures Installs(name) ==> t'.companion[name.value] == Proxy(fn)
  {
    var companion := if Installs(name) then t.companion[name.value := Proxy(fn)] else t.companion;
    t.(clauses := t.clauses + [Clause(types, fn)], companion := companion)
  }

  /** How the walk over the clauses ends: the first clause that accepts the
      arguments, none, or the clause whose check threw, which ends the call. */
  datatype Selection = Selected(index: nat) | NoneSelected | Aborted(index: nat)

  /** The first clause, in registration order, whose check does not answer `false`. */
  function FirstMatch(reg: seq<Strategy>, clauses: seq<Clause>, args: seq<Value>): (r: Selection)
    ensures r.Selected? ==> r.index < |clauses| && CheckTypes(reg, clauses[r.index].types, args) == Yes
    ensures r.Aborted? ==> r.index < |clauses| && CheckTypes(reg, clauses[r.index].types, args) == Raised
    ensures !r.NoneSelected? ==> forall j | 0 <= j < r.index :: CheckTypes(reg, clauses[j].types, args) == No
    ensures r.NoneSelected? <==> forall j | 0 <= j < |clauses| :: CheckTypes(reg, clauses[j].types, args) == No
  {
    if |clauses| == 0 then NoneSelected
    else
      match CheckTypes(reg, clauses[0].types, args)
      case Yes => Selected(0)
      case Raised => Aborted(0)
      case No =>
        match FirstMatch(reg, clauses[1..], args)
        case NoneSelected => NoneSelected
        case Selected(i) => Selected(i + 1)
        case Aborted(i) => Aborted(i + 1)
  }

  /** Calling a default directly: a wrapper checks, a function is called with the
      arguments alone, any other value is returned. */
  function CallDefault(reg: seq<Strategy>, slot: DefaultSlot, args: seq<Value>, receiver: Value): Outcome {
    match slot
    case Checked(g) => GuardedCall(reg, g, args, receiver)
    case Plain(v) => if v.Func? then Called(v.id, args, receiver) else Returned(v)
  }

  /** The outcome of calling the table, as a declarative definition. */
  function Dispatch(reg: seq<Strategy>, t: Table, args: seq<Value>, receiver: Value): Outcome {
    match FirstMatch(reg, t.clauses, args)
    case Selected(i) => Called(t.clauses[i].fn, args + [Companion(t)], receiver)
    case Aborted(_) => Threw(MatchingError)
    case NoneSelected => CallDefault(reg, t.fallback, args, receiver)
  }

  /** Calling the table: every clause is visited in order, the first that accepts
      the arguments runs with the companion appended and the caller's receiver;
      without one, the default. A throw from a clause's check leaves the call. */
  method Call(reg: seq<Strategy>, t: Table, args: seq<Value>, receiver: Value) returns (out: Outcome)
    ensures out == Dispatch(reg, t, args, receiver)
  {
    out := Returned(Undefined);
    var done := false;
    var i := 0;
    while i < |t.clauses|
      invariant 0 <= i <= |t.clauses|
      invariant !done <==> forall j | 0 <= j < i :: CheckTypes(reg, t.clauses[j].types, args) == No
      invariant done ==> exists k | 0 <= k < i ::
        (FirstMatch(reg, t.clauses, args) == Selected(k) && out == Called(t.clauses[k].fn, args + [Companion(t)], receiver))
    {
      if !done {
        var verdict := CheckTypes(reg, t.clauses[i].types, args);
        if verdict == Raised {
          assert FirstMatch(reg, t.clauses, args) == Aborted(i);
          out := Threw(MatchingError);
          return;
        } else if verdict == Yes {
          done := true;
          out := Called(t.clauses[i].fn, args + [Companion(t)], receiver);
          assert FirstMatch(reg, t.clauses, args) == Selected(i);
        }
      }
      i := i + 1;
    }
    if !done {
      out := CallDefault(reg, t.fallback, args, receiver);
    }
  }

  /** Calling `o[key](...args)`: a proxy calls its handler with the companion
      appended and no type check; `o.default` calls the default directly; a key the
      table never set is taken as undefined, so the call throws. */
  function CallCompanion(reg: seq<Strategy>, t: Table, key: string, args: seq<Value>, receiver: Value): Outcome {
    if key !in t.companion then Threw(NotCallable(Undefined))
    else
      match t.companion[key]
      case Proxy(fn) => Called(fn, args + [Companion(t)], receiver)
      case DefaultEntry(Checked(g)) => GuardedCall(reg, g, args, receiver)
      case DefaultEntry(Plain(v)) => if v.Func? then Called(v.id, args, receiver) else Threw(NotCallable(v))
  }

}

=== FILE: overload_facts.dfy ===
/** What the overload dispatcher promises: first registered clause wins, the
    default as fallback, append-only registration, and the companion proxies. */
module OverloadFacts {

  import opened Optional
  import opened JsValues
  import opened Descriptors
  import opened Matching
  import opened MatchingFacts
  import opened ArgCheck
  import opened Guarded
  import opened Overload

  /** The imperative loop and the declarative definition agree, and the clause that
      runs is the earliest one whose descriptors accept the arguments. */
  lemma EarlierClauseWins(reg: seq<Strategy>, t: Table, args: seq<Value>, receiver: Value, i: nat)
    requires i < |t.clauses| && CheckTypes(reg, t.clauses[i].types, args) == Yes
    requires forall j | 0 <= j < i :: CheckTypes(reg, t.clauses[j].types, args) == No
    ensures Dispatch(reg, t, args, receiver) == Called(t.clauses[i].fn, args + [Companion(t)], receiver)
  {
    var r := FirstMatch(reg, t.clauses, args);
    assert !r.NoneSelected?;
    assert r == Selected(i);
  }

  /** A clause whose check throws ends the call with that throw, even when a later
      clause or the default would accept the arguments. */
  lemma RaisingClauseStopsDispatch(reg: seq<Strategy>, t: Table, args: seq<Value>, receiver: Value, i: nat)
    requires i < |t.clauses| && CheckTypes(reg, t.clauses[i].types, args) == Raised
    requires forall j | 0 <= j < i :: CheckTypes(reg, t.clauses[j].types, args) == No
    ensures Dispatch(reg, t, args, receiver) == Threw(MatchingError)
  {
    var r := FirstMatch(reg, t.clauses, args);
    assert !r.NoneSelected?;
    assert r == Aborted(i);
  }

  /** When no clause accepts the arguments the default decides: a function is called
      with the arguments only (no companion), a typed default checks them, any other
      value is returned. */
  lemma NoClauseFallsBack(reg: seq<Strategy>, t: Table, args: seq<Value>, receiver: Value)
    requires forall j | 0 <= j < |t.clauses| :: CheckTypes(reg, t.clauses[j].types, args) == No
    ensures t.fallback.Plain? && t.fallback.v.Func? ==>
      Dispatch(reg, t, args, receiver) == Called(t.fallback.v.id, args, receiver)
    ensures t.fallback.Plain? && !t.fallback.v.Func? ==>
      Dispatch(reg, t, args, receiver) == Returned(t.fallback.v)
    ensures t.fallback.Checked? ==>
      Dispatch(reg, t, args, receiver) == GuardedCall(reg, t.fallback.guard, args, receiver)
  {
  }

  /** With an untyped default, "no clause matched" never throws, since that is what
      the default is for: a call throws only when a clause's check throws. */
  lemma UntypedDispatchNeverThrows(reg: seq<Strategy>, t: Table, args: seq<Value>, receiver: Value)
    requires t.fallback.Plain?
    ensures Dispatch(reg, t, args, receiver).Threw? <==> FirstMatch(reg, t.clauses, args).Aborted?
    ensures Dispatch(reg, t, args, receiver).Threw? ==> Dispatch(reg, t, args, receiver) == Threw(MatchingError)
    ensures !Dispatch(reg, t, args, receiver).HookCalled?
  {
  }

  /** The default `overload` settles on, seen through a call of the fresh table:
      `overload(fn)` calls `fn`; `overload(types, fn)` guards `fn` with `typeChecked`
      and so throws on a mismatch; otherwise the second argument is the default. */
  lemma FreshTableCallsDefault(reg: seq<Strategy>, first: FirstArg, second: Value, companionId: ObjectId, args: seq<Value>, receiver: Value)
    requires first.Val? ==> !first.v.Arr?
    ensures var out := Dispatch(reg, NewOverload(first, second, companionId), args, receiver);
      && (first.Val? && first.v.Func? && second == Undefined ==> out == Called(first.v.id, args, receiver))
      && (first.DescList? && second.Func? ==> out == GuardedCall(reg, TypeChecked(first.ts, second.id), args, receiver))
      && (first.DescList? && second.Func? && CheckTypes(reg, first.ts, args) == No ==> out == Threw(TypeMismatch(first.ts, args)))
      && (first.Val? && second.Func? ==> out == Called(second.id, args, receiver))
      && (!second.Func? && !(first.Val? && first.v.Func? && second == Undefined) ==> out == Returned(second))
  {
  }

  /** Registration only appends: a call some clause already accepted is dispatched
      exactly as before. */
  lemma WhenKeepsEarlierDecisions(reg: seq<Strategy>, t: Table, name: Option<string>, types: seq<Desc>, fn: ObjectId, args: seq<Value>, receiver: Value)
    requires exists j | 0 <= j < |t.clauses| :: CheckTypes(reg, t.clauses[j].types, args) != No
    ensures Dispatch(reg, When(t, name, types, fn), args, receiver) == Dispatch(reg, t, args, receiver)
  {
    var t' := When(t, name, types, fn);
    var r := FirstMatch(reg, t.clauses, args);
    assert !r.NoneSelected?;
    var i := r.index;
    assert t'.clauses[i] == t.clauses[i];
    if r.Selected? {
      EarlierClauseWins(reg, t', args, receiver, i);
    } else {
      RaisingClauseStopsDispatch(reg, t', args, receiver, i);
    }
  }

  /** A new clause only takes the calls that no earlier clause accepted. */
  lemma WhenCatchesOnlyUnmatched(reg: seq<Strategy>, t: Table, name: Option<string>, types: seq<Desc>, fn: ObjectId, args: seq<Value>, receiver: Value)
    requires forall j | 0 <= j < |t.clauses| :: CheckTypes(reg, t.clauses[j].types, args) == No
    ensures CheckTypes(reg, types, args) == Yes ==>
      Dispatch(reg, When(t, name, types, fn), args, receiver) == Called(fn, args + [Companion(t)], receiver)
    ensures CheckTypes(reg, types, args) == No ==>
      Dispatch(reg, When(t, name, types, fn), args, receiver) == Dispatch(reg, t, args, receiver)
    ensures CheckTypes(reg, types, args) == Raised ==>
      Dispatch(reg, When(t, name, types, fn), args, receiver) == Threw(MatchingError)
  {
    var t' := When(t, name, types, fn);
    match CheckTypes(reg, types, args)
    case Yes => EarlierClauseWins(reg, t', args, receiver, |t.clauses|);
    case Raised => RaisingClauseStopsDispatch(reg, t', args, receiver, |t.clauses|);
    case No => assert FirstMatch(reg, t'.clauses, args).NoneSelected?;
  }

  /** `o[name]` calls the clause's handler with the companion appended, on any
      arguments: the proxy does no type check. */
  lemma NamedWhenInstallsUncheckedProxy(reg: seq<Strategy>, t: Table, n: string, types: seq<Desc>, fn: ObjectId, args: seq<Value>, receiver: Value)
    requires n != ""
    ensures CallCompanion(reg, When(t, Some(n), types, fn), n, args, receiver) == Called(fn, args + [Companion(t)], receiver)
  {
  }

  /** Calling a named clause through the companion gives the same outcome as calling
      the table, whenever dispatch would pick a clause with that handler. */
  lemma NamedProxyAgreesWithDispatch(reg: seq<Strategy>, t: Table, n: string, args: seq<Value>, receiver: Value, i: nat)
    requires n in t.companion && t.companion[n].Proxy?
    requires FirstMatch(reg, t.clauses, args) == Selected(i) && t.clauses[i].fn == t.companion[n].fn
    ensures CallCompanion(reg, t, n, args, receiver) == Dispatch(reg, t, args, receiver)
  {
  }

  /** A clause named "default" replaces `o.default`, but the dispatcher keeps falling
      back to the default it was built with. */
  lemma ClauseNamedDefaultKeepsFallback(reg: seq<Strategy>, t: Table, types: seq<Desc>, fn: ObjectId, args: seq<Value>, receiver: Value)
    requires forall j | 0 <= j < |t.clauses| :: CheckTypes(reg, t.clauses[j].types, args) == No
    requires CheckTypes(reg, types, args) == No
    ensures Dispatch(reg, When(t, Some("default"), types, fn), args, receiver) == CallDefault(reg, t.fallback, args, receiver)
    ensures CallCompanion(reg, When(t, Some("default"), types, fn), "default", args, receiver) == Called(fn, args + [Companion(t)], receiver)
  {
    WhenCatchesOnlyUnmatched(reg, t, Some("default"), types, fn, args, receiver);
  }

  /** `when` takes the two-argument form exactly when its first argument is an array,
      its second a function, and any further arguments are undefined: `matchTypes`
      pads the descriptor list with undefined and does not compare lengths. So
      `when(types, fn)` is recognised, and `when(name, types, fn)` with a function
      `fn` never is. */
  lemma TwoArgumentFormDetection(reg: seq<Strategy>, whenArgs: seq<Value>)
    requires ValidRegistry(reg)
    ensures TwoArgumentForm(reg, whenArgs) <==>
      && |whenArgs| >= 2 && whenArgs[0].Arr? && whenArgs[1].Func?
      && forall i | 2 <= i < |whenArgs| :: whenArgs[i] == Undefined
  {
    var ts := [Native(ArrayKind), Native(FunctionKind)];
    MatchTypesPadded(reg, ts, whenArgs);
    NativeMatchesByKind(reg, ArrayKind, ValueAt(whenArgs, 0));
    NativeMatchesByKind(reg, FunctionKind, ValueAt(whenArgs, 1));
    forall i | 2 <= i < Max(|ts|, |whenArgs|)
      ensures MatchAt(reg, ts, whenArgs, i) == Answer(whenArgs[i] == Undefined)
    {
      NullishDescriptors(reg, ValueAt(whenArgs, i));
    }
    if TwoArgumentForm(reg, whenArgs) {
      assert MatchAt(reg, ts, whenArgs, 0) == Yes;
      assert MatchAt(reg, ts, whenArgs, 1) == Yes;
    }
  }

}

=== FILE: scenarios.dfy ===
/** The behaviours the repository's test suite exercises, stated for every strategy
    list reachable from the initial one. */
module Scenarios {

  import opened Optional
  import opened JsValues
  import opened Descriptors
  import opened Matching
  import opened MatchingFacts
  import opened ArgCheck
  import opened Guarded
  import opened Overload
  import opened OverloadFacts

  /** The descriptor list `[K1, ..., Kn]` of native constructors. */
  function Natives(ks: seq<Kind>): seq<Desc> {
    seq(|ks|, i requires 0 <= i < |ks| => Native(ks[i]))
  }

  /** A list of native constructors checks the kinds position by position. */
  lemma NativeListChecksKinds(reg: seq<Strategy>, ks: seq<Kind>, vs: seq<Value>)
    requires ValidRegistry(reg)
    ensures CheckTypes(reg, Natives(ks), vs) == Answer(|ks| == |vs| && forall i | 0 <= i < |ks| :: KindHolds(ks[i], vs[i]))
  {
    CheckTypesPointwise(reg, Natives(ks), vs);
    forall i | 0 <= i < |ks| && i < |vs|
      ensures MatchType(reg, Natives(ks)[i], vs[i]) == Answer(KindHolds(ks[i], vs[i]))
    {
      NativeMatchesByKind(reg, ks[i], vs[i]);
    }
  }

  // ---------------------------------------------------------------------------
  // typeChecked([String, Number, Custom], fn)

  const CustomClass: ObjectId := 30
  const Wrapped: Guard := TypeChecked([Native(StringKind), Native(NumberKind), Class(CustomClass, true)], 31)

  /** Correct types reach the function; two arguments for three descriptors throw by
      default, and call the hook once one is installed. */
  lemma TypeCheckedScenario(reg: seq<Strategy>, receiver: Value)
    requires ValidRegistry(reg)
    ensures var args := [Str("ab"), Num(3), Instance(40, [CustomClass])];
      GuardedCall(reg, Wrapped, args, receiver) == Called(31, args, receiver)
    ensures var args := [Str("incorrect"), Str("types")];
      GuardedCall(reg, Wrapped, args, receiver) == Threw(TypeMismatch(Wrapped.types, args))
    ensures var args := [Str("a"), Str("2")];
      GuardedCall(reg, OnError(Wrapped, Func(32)), args, receiver)
        == HookCalled(32, TypeMismatch(Wrapped.types, args), args, Wrapped.types)
    ensures var args := [Str("incorrect"), Str("types")];
      GuardedCall(reg, OnError(OnError(Wrapped, Func(32)), Null), args, receiver)
        == Threw(TypeMismatch(Wrapped.types, args))
  {
    var args := [Str("ab"), Num(3), Instance(40, [CustomClass])];
    CheckTypesPointwise(reg, Wrapped.types, args);
    NativeMatchesByKind(reg, StringKind, Str("ab"));
    NativeMatchesByKind(reg, NumberKind, Num(3));
    ClassUsesInstanceof(reg, CustomClass, true, Instance(40, [CustomClass]));
    ClassUsesInstanceof(reg, CustomClass, true, Str("types"));
    CheckTypesPointwise(reg, Wrapped.types, [Str("incorrect"), Str("types")]);
    CheckTypesPointwise(reg, Wrapped.types, [Str("a"), Str("2")]);
  }

  /** `typeChecked([x => x > 0], fn).onError(h)`: an arrow function has no
      `prototype` object, so an object argument makes the check itself throw, past
      the hook, while a number is an ordinary mismatch that the hook receives. */
  lemma ArrowDescriptorScenario(reg: seq<Strategy>, receiver: Value)
    requires ValidRegistry(reg)
    ensures var g := OnError(TypeChecked([Class(50, false)], 51), Func(52));
      GuardedCall(reg, g, [PlainObj(53)], receiver) == Threw(MatchingError)
    ensures var g := OnError(TypeChecked([Class(50, false)], 51), Func(52));
      GuardedCall(reg, g, [Num(1)], receiver) == HookCalled(52, TypeMismatch([Class(50, false)], [Num(1)]), [Num(1)], [Class(50, false)])
  {
    CheckTypesPointwise(reg, [Class(50, false)], [PlainObj(53)]);
    CheckTypesPointwise(reg, [Class(50, false)], [Num(1)]);
    ClassUsesInstanceof(reg, 50, false, PlainObj(53));
    ClassUsesInstanceof(reg, 50, false, Num(1));
  }

  // ---------------------------------------------------------------------------
  // A completely overloaded function

  const Comp: ObjectId := 100

  /** `overload(function () { return this; })` with seven clauses; handler `k` is
      registered `k`-th, the default is function 0. */
  function Complete(): Table {
    var t := NewOverload(Val(Func(0)), Undefined, Comp);
    var t := When(t, None, Natives([NumberKind]), 1);
    var t := When(t, None, Natives([NumberKind, NumberKind]), 2);
    var t := When(t, None, Natives([StringKind, StringKind]), 3);
    var t := When(t, None, Natives([StringKind, StringKind, StringKind]), 4);
    var t := When(t, None, [Native(BooleanKind), Either(Natives([StringKind, ArrayKind]))], 5);
    var t := When(t, None, [AnyType, AnyType, AnyType, AnyType], 6);
    When(t, None, Natives([NumberKind, StringKind]), 7)
  }

  lemma CompleteShape()
    ensures |Complete().clauses| == 7 && Complete().fallback == Plain(Func(0))
    ensures forall i | 0 <= i < 7 :: Complete().clauses[i].fn == i + 1
    ensures Complete().clauses[0].types == Natives([NumberKind])
    ensures Complete().clauses[1].types == Natives([NumberKind, NumberKind])
    ensures Complete().clauses[2].types == Natives([StringKind, StringKind])
    ensures Complete().clauses[3].types == Natives([StringKind, StringKind, StringKind])
    ensures Complete().clauses[4].types == [Native(BooleanKind), Either(Natives([StringKind, ArrayKind]))]
    ensures Complete().clauses[6].types == Natives([NumberKind, StringKind])
    ensures forall i | 0 <= i < 7 :: |Complete().clauses[i].types| == [1, 2, 2, 3, 2, 4, 2][i]
    ensures Companion(Complete()) == PlainObj(Comp)
  {
  }

  /** `fn('2', '57', 'x')` runs the String/String/String clause. */
  lemma ThreeStringsScenario(reg: seq<Strategy>, receiver: Value)
    requires ValidRegistry(reg)
    ensures var args := [Str("2"), Str("57"), Str("x")];
      Dispatch(reg, Complete(), args, receiver) == Called(4, args + [PlainObj(Comp)], receiver)
  {
    var args := [Str("2"), Str("57"), Str("x")];
    CompleteShape();
    forall j | 0 <= j < 3
      ensures CheckTypes(reg, Complete().clauses[j].types, args) == No
    {
      CheckTypesPointwise(reg, Complete().clauses[j].types, args);
    }
    NativeListChecksKinds(reg, [StringKind, StringKind, StringKind], args);
    EarlierClauseWins(reg, Complete(), args, receiver, 3);
  }

  /** `fn(2, '57')` passes over the three earlier two-argument clauses and runs
      Number/String, the last one registered. */
  lemma NumberStringScenario(reg: seq<Strategy>, receiver: Value)
    requires ValidRegistry(reg)
    ensures var args := [Num(2), Str("57")];
      Dispatch(reg, Complete(), args, receiver) == Called(7, args + [PlainObj(Comp)], receiver)
  {
    var args := [Num(2), Str("57")];
    var t := Complete();
    CompleteShape();
    assert CheckTypes(reg, t.clauses[0].types, args) == No by {
      CheckTypesPointwise(reg, t.clauses[0].types, args);
    }
    assert CheckTypes(reg, t.clauses[1].types, args) == No by {
      NativeListChecksKinds(reg, [NumberKind, NumberKind], args);
    }
    assert CheckTypes(reg, t.clauses[2].types, args) == No by {
      NativeListChecksKinds(reg, [StringKind, StringKind], args);
    }
    assert CheckTypes(reg, t.clauses[3].types, args) == No by {
      CheckTypesPointwise(reg, t.clauses[3].types, args);
    }
    assert CheckTypes(reg, t.clauses[4].types, args) == No by {
      CheckTypesPointwise(reg, t.clauses[4].types, args);
      NativeMatchesByKind(reg, BooleanKind, Num(2));
    }
    assert CheckTypes(reg, t.clauses[5].types, args) == No by {
      CheckTypesPointwise(reg, t.clauses[5].types, args);
    }
    assert CheckTypes(reg, t.clauses[6].types, args) == Yes by {
      NativeListChecksKinds(reg, [NumberKind, StringKind], args);
    }
    EarlierClauseWins(reg, Complete(), args, receiver, 6);
  }

  /** `fn('?', 0, null, 'fourth')`: no earlier clause takes four arguments, and `Any`
      accepts each of them, null included. */
  lemma AnyFourScenario(reg: seq<Strategy>, receiver: Value)
    requires ValidRegistry(reg)
    ensures var args := [Str("?"), Num(0), Null, Str("fourth")];
      Dispatch(reg, Complete(), args, receiver) == Called(6, args + [PlainObj(Comp)], receiver)
  {
    var args := [Str("?"), Num(0), Null, Str("fourth")];
    var t := Complete();
    CompleteShape();
    forall j | 0 <= j < 5
      ensures CheckTypes(reg, t.clauses[j].types, args) == No
    {
      CheckTypesPointwise(reg, t.clauses[j].types, args);
    }
    assert CheckTypes(reg, t.clauses[5].types, args) == Yes by {
      CheckTypesPointwise(reg, t.clauses[5].types, args);
      forall i | 0 <= i < 4
        ensures MatchType(reg, AnyType, args[i]) == Yes
      {
        AnyMatchesEverything(reg, args[i]);
      }
    }
    EarlierClauseWins(reg, t, args, receiver, 5);
  }

  /** `Either(String, Array)` accepts exactly the strings and the arrays. */
  lemma StringOrArray(reg: seq<Strategy>, v: Value)
    requires ValidRegistry(reg)
    ensures MatchType(reg, Either(Natives([StringKind, ArrayKind])), v) == Answer(v.Str? || v.Arr?)
  {
    var alts := Natives([StringKind, ArrayKind]);
    NativeMatchesByKind(reg, StringKind, v);
    NativeMatchesByKind(reg, ArrayKind, v);
    EitherIsDisjunction(reg, alts, v);
    if v.Str? || v.Arr? {
      assert MatchType(reg, alts[if v.Str? then 0 else 1], v) == Yes;
    }
  }

  /** A boolean followed by a value that `Either(String, Array)` accepts: the
      alternatives are resolved when the clause's check runs. */
  lemma EitherClauseAccepts(reg: seq<Strategy>, b: bool, v: Value, receiver: Value)
    requires ValidRegistry(reg) && (v.Str? || v.Arr?)
    ensures var args := [Bool(b), v];
      Dispatch(reg, Complete(), args, receiver) == Called(5, args + [PlainObj(Comp)], receiver)
  {
    var args := [Bool(b), v];
    var t := Complete();
    CompleteShape();
    assert CheckTypes(reg, t.clauses[0].types, args) == No by {
      CheckTypesPointwise(reg, t.clauses[0].types, args);
    }
    assert CheckTypes(reg, t.clauses[1].types, args) == No by {
      NativeListChecksKinds(reg, [NumberKind, NumberKind], args);
    }
    assert CheckTypes(reg, t.clauses[2].types, args) == No by {
      NativeListChecksKinds(reg, [StringKind, StringKind], args);
    }
    assert CheckTypes(reg, t.clauses[3].types, args) == No by {
      CheckTypesPointwise(reg, t.clauses[3].types, args);
    }
    assert CheckTypes(reg, t.clauses[4].types, args) == Yes by {
      CheckTypesPointwise(reg, t.clauses[4].types, args);
      NativeMatchesByKind(reg, BooleanKind, Bool(b));
      StringOrArray(reg, v);
    }
    EarlierClauseWins(reg, t, args, receiver, 4);
  }

  /** `fn(true, '?')` and `fn(false, [1, 2, 3, 4, 5])` run Boolean/Either(String, Array). */
  lemma EitherScenario(reg: seq<Strategy>, receiver: Value)
    requires ValidRegistry(reg)
    ensures var args := [Bool(true), Str("?")];
      Dispatch(reg, Complete(), args, receiver) == Called(5, args + [PlainObj(Comp)], receiver)
    ensures var args := [Bool(false), Arr([Num(1), Num(2), Num(3), Num(4), Num(5)])];
      Dispatch(reg, Complete(), args, receiver) == Called(5, args + [PlainObj(Comp)], receiver)
  {
    EitherClauseAccepts(reg, true, Str("?"), receiver);
    EitherClauseAccepts(reg, false, Arr([Num(1), Num(2), Num(3), Num(4), Num(5)]), receiver);
  }

  /** `fn('2', '57')` passes over Number and Number/Number and runs String/String. */
  lemma StringStringScenario(reg: seq<Strategy>, receiver: Value)
    requires ValidRegistry(reg)
    ensures var args := [Str("2"), Str("57")];
      Dispatch(reg, Complete(), args, receiver) == Called(3, args + [PlainObj(Comp)], receiver)
  {
    var args := [Str("2"), Str("57")];
    var t := Complete();
    CompleteShape();
    assert CheckTypes(reg, t.clauses[0].types, args) == No by {
      CheckTypesPointwise(reg, t.clauses[0].types, args);
    }
    assert CheckTypes(reg, t.clauses[1].types, args) == No by {
      NativeListChecksKinds(reg, [NumberKind, NumberKind], args);
    }
    assert CheckTypes(reg, t.clauses[2].types, args) == Yes by {
      NativeListChecksKinds(reg, [StringKind, StringKind], args);
    }
    EarlierClauseWins(reg, t, args, receiver, 2);
  }

  /** `fn(2, 57)` passes over Number and runs Number/Number. */
  lemma NumberNumberScenario(reg: seq<Strategy>, receiver: Value)
    requires ValidRegistry(reg)
    ensures var args := [Num(2), Num(57)];
      Dispatch(reg, Complete(), args, receiver) == Called(2, args + [PlainObj(Comp)], receiver)
  {
    var args := [Num(2), Num(57)];
    var t := Complete();
    CompleteShape();
    assert CheckTypes(reg, t.clauses[0].types, args) == No by {
      CheckTypesPointwise(reg, t.clauses[0].types, args);
    }
    assert CheckTypes(reg, t.clauses[1].types, args) == Yes by {
      NativeListChecksKinds(reg, [NumberKind, NumberKind], args);
    }
    EarlierClauseWins(reg, t, args, receiver, 1);
  }

  /** `fn(42)` runs Number, the first clause. */
  lemma NumberScenario(reg: seq<Strategy>, receiver: Value)
    requires ValidRegistry(reg)
    ensures Dispatch(reg, Complete(), [Num(42)], receiver) == Called(1, [Num(42), PlainObj(Comp)], receiver)
  {
    var t := Complete();
    CompleteShape();
    assert CheckTypes(reg, t.clauses[0].types, [Num(42)]) == Yes by {
      NativeListChecksKinds(reg, [NumberKind], [Num(42)]);
    }
    EarlierClauseWins(reg, t, [Num(42)], receiver, 0);
  }

  /** `fn.apply(42, [])`: no clause takes zero arguments, so the default runs with
      the caller's receiver and no companion. */
  lemma ReceiverScenario(reg: seq<Strategy>)
    requires ValidRegistry(reg)
    ensures Dispatch(reg, Complete(), [], Num(42)) == Called(0, [], Num(42))
  {
    CompleteShape();
    forall j | 0 <= j < 7
      ensures CheckTypes(reg, Complete().clauses[j].types, []) == No
    {
      CheckTypesPointwise(reg, Complete().clauses[j].types, []);
    }
    NoClauseFallsBack(reg, Complete(), [], Num(42));
  }

  // ---------------------------------------------------------------------------
  // Partially overloaded functions

  /** The untyped version: a named String/Object clause and an unnamed
      String/String/Object clause over default function 20. */
  function Untyped(): Table {
    var t := NewOverload(Val(Func(20)), Undefined, 300);
    var t := When(t, Some("withName"), Natives([StringKind, ObjectKind]), 21);
    When(t, None, Natives([StringKind, StringKind, ObjectKind]), 22)
  }

  /** `createObj(2)` reaches the untyped default instead of throwing; and
      `o.withName(name, obj)`, as the three-argument clause calls it, behaves as a
      direct call of the table with `(name, obj)`. */
  lemma UntypedScenario(reg: seq<Strategy>, receiver: Value, obj: ObjectId)
    requires ValidRegistry(reg)
    ensures Dispatch(reg, Untyped(), [Num(2)], receiver) == Called(20, [Num(2)], receiver)
    ensures var args := [Str("great"), PlainObj(obj)];
      && CallCompanion(reg, Untyped(), "withName", args, PlainObj(300)) == Dispatch(reg, Untyped(), args, PlainObj(300))
      && Dispatch(reg, Untyped(), args, PlainObj(300)) == Called(21, args + [PlainObj(300)], PlainObj(300))
  {
    var t := Untyped();
    assert t.clauses[0] == Clause(Natives([StringKind, ObjectKind]), 21);
    assert t.clauses[1] == Clause(Natives([StringKind, StringKind, ObjectKind]), 22);
    assert t.companion["withName"] == Proxy(21);
    NativeListChecksKinds(reg, [StringKind, ObjectKind], [Num(2)]);
    NativeListChecksKinds(reg, [StringKind, StringKind, ObjectKind], [Num(2)]);
    NoClauseFallsBack(reg, t, [Num(2)], receiver);
    var args := [Str("great"), PlainObj(obj)];
    NativeListChecksKinds(reg, [StringKind, ObjectKind], args);
    EarlierClauseWins(reg, t, args, PlainObj(300), 0);
  }

  /** On the untyped table, `createObj('great', 'a fancy obj', {inner: 1})` runs the
      String/String/Object clause. */
  lemma UntypedThreeArgumentScenario(reg: seq<Strategy>, receiver: Value, obj: ObjectId)
    requires ValidRegistry(reg)
    ensures var args := [Str("great"), Str("a fancy obj"), PlainObj(obj)];
      Dispatch(reg, Untyped(), args, receiver) == Called(22, args + [PlainObj(300)], receiver)
  {
    var t := Untyped();
    assert t.clauses[0] == Clause(Natives([StringKind, ObjectKind]), 21);
    assert t.clauses[1] == Clause(Natives([StringKind, StringKind, ObjectKind]), 22);
    var args := [Str("great"), Str("a fancy obj"), PlainObj(obj)];
    NativeListChecksKinds(reg, [StringKind, ObjectKind], args);
    NativeListChecksKinds(reg, [StringKind, StringKind, ObjectKind], args);
    EarlierClauseWins(reg, t, args, receiver, 1);
  }

  /** On the untyped table, `createObj({inner: 3})` reaches the default with the
      object alone. */
  lemma UntypedDefaultScenario(reg: seq<Strategy>, receiver: Value, obj: ObjectId)
    requires ValidRegistry(reg)
    ensures Dispatch(reg, Untyped(), [PlainObj(obj)], receiver) == Called(20, [PlainObj(obj)], receiver)
  {
    var t := Untyped();
    assert t.clauses[0] == Clause(Natives([StringKind, ObjectKind]), 21);
    assert t.clauses[1] == Clause(Natives([StringKind, StringKind, ObjectKind]), 22);
    NativeListChecksKinds(reg, [StringKind, ObjectKind], [PlainObj(obj)]);
    NativeListChecksKinds(reg, [StringKind, StringKind, ObjectKind], [PlainObj(obj)]);
    NoClauseFallsBack(reg, t, [PlainObj(obj)], receiver);
  }

  /** On the typed table, the String/String/Object and String/Object calls run their
      clauses. */
  lemma TypedClausesScenario(reg: seq<Strategy>, receiver: Value, obj: ObjectId)
    requires ValidRegistry(reg)
    ensures var args := [Str("great"), Str("a fancy obj"), PlainObj(obj)];
      Dispatch(reg, TypedTable(), args, receiver) == Called(12, args + [PlainObj(200)], receiver)
    ensures var args := [Str("great"), PlainObj(obj)];
      Dispatch(reg, TypedTable(), args, receiver) == Called(11, args + [PlainObj(200)], receiver)
  {
    var t := TypedTable();
    assert t.clauses[0] == Clause(Natives([StringKind, ObjectKind]), 11);
    assert t.clauses[1] == Clause(Natives([StringKind, StringKind, ObjectKind]), 12);
    var args3 := [Str("great"), Str("a fancy obj"), PlainObj(obj)];
    assert CheckTypes(reg, t.clauses[0].types, args3) == No by {
      NativeListChecksKinds(reg, [StringKind, ObjectKind], args3);
    }
    assert CheckTypes(reg, t.clauses[1].types, args3) == Yes by {
      NativeListChecksKinds(reg, [StringKind, StringKind, ObjectKind], args3);
    }
    EarlierClauseWins(reg, t, args3, receiver, 1);
    var args2 := [Str("great"), PlainObj(obj)];
    assert CheckTypes(reg, t.clauses[0].types, args2) == Yes by {
      NativeListChecksKinds(reg, [StringKind, ObjectKind], args2);
    }
    EarlierClauseWins(reg, t, args2, receiver, 0);
  }

  /** On the typed table, `createObj({inner: 3})` matches no clause and passes the
      default's own `[Object]` check, so the default runs with the object alone. */
  lemma TypedDefaultScenario(reg: seq<Strategy>, receiver: Value, obj: ObjectId)
    requires ValidRegistry(reg)
    ensures Dispatch(reg, TypedTable(), [PlainObj(obj)], receiver) == Called(10, [PlainObj(obj)], receiver)
  {
    var t := TypedTable();
    assert t.clauses[0] == Clause(Natives([StringKind, ObjectKind]), 11);
    assert t.clauses[1] == Clause(Natives([StringKind, StringKind, ObjectKind]), 12);
    NativeListChecksKinds(reg, [StringKind, ObjectKind], [PlainObj(obj)]);
    NativeListChecksKinds(reg, [StringKind, StringKind, ObjectKind], [PlainObj(obj)]);
    NativeListChecksKinds(reg, [ObjectKind], [PlainObj(obj)]);
    NoClauseFallsBack(reg, t, [PlainObj(obj)], receiver);
  }

  /** The typed version `overload([Object], fn)`: `createObj(2)` matches no clause
      and fails the default's own check, so it throws. */
  lemma TypedScenario(reg: seq<Strategy>, receiver: Value)
    requires ValidRegistry(reg)
    ensures Dispatch(reg, TypedTable(), [Num(2)], receiver)
      == Threw(TypeMismatch(Natives([ObjectKind]), [Num(2)]))
  {
    var t := TypedTable();
    NativeListChecksKinds(reg, [StringKind, ObjectKind], [Num(2)]);
    NativeListChecksKinds(reg, [StringKind, StringKind, ObjectKind], [Num(2)]);
    NativeListChecksKinds(reg, [ObjectKind], [Num(2)]);
    NoClauseFallsBack(reg, t, [Num(2)], receiver);
  }

  function TypedTable(): Table {
    var t := NewOverload(DescList(Natives([ObjectKind])), Func(10), 200);
    var t := When(t, None, Natives([StringKind, ObjectKind]), 11);
    When(t, None, Natives([StringKind, StringKind, ObjectKind]), 12)
  }

}

=== FILE: values.dfy ===
/** JavaScript values as the type-matching engine observes them: their kind, the
    identity of functions and objects, and the prototype chain of class instances.
    Numbers are opaque integers: the engine classifies values and never computes
    with them. */
module JsValues {

  /** Identity of a heap object: a function, a class constructor, a plain object. */
  type ObjectId = nat

  datatype Value =
    | Null
    | Undefined
    | Bool(b: bool)
    | Num(n: int)
    | Str(s: string)
    | Func(id: ObjectId)
    | Arr(elems: seq<Value>)
    | Date(time: int)
    | RegExp(source: string)
    | PlainObj(id: ObjectId)
      /** The `arguments` object of a call: array-like, but not an array. */
    | ArgumentsObj(elems: seq<Value>)
      /** `new C()`; `ancestry` lists the constructors on its prototype chain. */
    | Instance(id: ObjectId, ancestry: seq<ObjectId>)

  /** The `typeof` operator. */
  function Typeof(v: Value): string {
    match v
    case Undefined => "undefined"
    case Bool(_) => "boolean"
    case Num(_) => "number"
    case Str(_) => "string"
    case Func(_) => "function"
    case _ => "object"
  }

  /** JavaScript truthiness (`!!v`). NaN is not modelled, so 0 is the only falsy number. */
  predicate Truthy(v: Value) {
    match v
    case Null => false
    case Undefined => false
    case Bool(b) => b
    case Num(n) => n != 0
    case Str(s) => s != ""
    case _ => true
  }

  /** The eight native constructors that are tested as kinds rather than with `instanceof`. */
  datatype Kind =
    | FunctionKind
    | BooleanKind
    | NumberKind
    | ArrayKind
    | DateKind
    | RegExpKind
    | ObjectKind
    | StringKind

  /** The kind test bound to each native constructor: `_.isFunction`, `_.isBoolean`,
      `_.isNumber`, `_.isArray`, `_.isDate`, `_.isRegExp`, `_.isObject`, `_.isString`.
      `_.isObject` is the generic "is an object" test: non-null with `typeof` object or function. */
  predicate KindHolds(k: Kind, v: Value) {
    match k
    case FunctionKind => v.Func?
    case BooleanKind => v.Bool?
    case NumberKind => v.Num?
    case ArrayKind => v.Arr?
    case DateKind => v.Date?
    case RegExpKind => v.RegExp?
    case ObjectKind => v != Null && (Typeof(v) == "object" || Typeof(v) == "function")
    case StringKind => v.Str?
  }

}
